=== FILE: README.md ===
# snapchat_export_converter, modelled in Dafny

A model of the clean-up passes of the Snapchat export converter, plus its
file-name pattern extractor. The passes run over a directory `tmp` holding an
unpacked "My Data" export:

- `remove_unwanted_files` keeps only files with the suffixes `.webp`, `.png`,
  `.jpeg`, `.jpg` and `.mp4`, in any case.
- `remove_thumbnails` deletes every file whose name contains `thumbnail`.
- `remove_duplicates` groups files by SHA-256 digest, keeps the first file of
  each group and unlinks the rest.
- `find_voice_memos` renames an `.mp4` to `<stem>-voicememo.mp4` when
  `ffprobe`, asked for its video streams, prints nothing but whitespace on
  standard output. A file `ffprobe` cannot read prints nothing there either,
  so it is renamed too. The listing is taken once; the renames then happen
  one after another on disk, and a rename replaces any file already at the
  new path.
- `process_image_overlays` and `process_video_overlays` pair a `-main.` file
  with a `-overlay.` file carrying the same 36-character identifier. Each main
  is renamed to `-original` and the overlay is composited into a
  `-with-overlay` file.
- `remove_empty_folders` removes empty directories round after round until
  none is left.
- `PatternAnalyzer.extract_pattern` turns a file name into a pattern. Dates
  become `<date>`, UUIDs `<uuid>` and digit runs `<num>`; the extension is
  kept. Long base64-like runs first become `<base64>`, but the digit pass
  that follows rewrites the `64` in that token, so they end up as
  `<base<num>>`.

Modules, one per concern:

| module | file | what it holds |
|---|---|---|
| `Options` | options.dfy | `Option`, for "no match" and "raised" |
| `Seqs` | seqs.dfy | filtering, first occurrences, distinctness |
| `Text` | text.dfy | `str` operations: `in`, `lower`, `rfind`, `replace`, `strip` |
| `Paths` | paths.dfy | `pathlib` `suffix`/`stem`/`with_name`, POSIX `os.path.splitext` |
| `OrderedDict` | ordered_dict.dfy | Python `dict` with insertion order |
| `Files` | files.dfy | a listed file: path and content (bytes, or unreadable); a `Tree` of files by path |
| `Cleanup` | cleanup.dfy | unwanted files and thumbnails |
| `VoiceMemos` | voice_memos.dfy | the voice-memo pass |
| `Duplicates` | duplicates.dfy | the duplicate pass |
| `Overlays` | overlays.dfy | both overlay passes |
| `EmptyFolders` | empty_folders.dfy | the empty-folder pass |
| `Pattern` | pattern.dfy | `extract_pattern` |

A few parts of the world become inputs:

- The directory listing (`rglob` order) is a sequence of `Entry` values.
- SHA-256 is a function parameter `sha256`.
- `ffprobe` is a parameter `probe`. It returns `None` when the call raises and
  otherwise the text it printed.
- PIL and `ffmpeg` are one parameter `render`. It returns `None` when
  compositing fails and otherwise the bytes written.
- The voice-memo and overlay passes act on a `Tree`, a map from paths to contents.
  Their listing (`rglob` of that tree in the program) is a separate, free
  input: the model does not tie it to the tree. Where a property needs the
  tie, the lemma states it, as `PassFresh` does for a first run.
- The empty-folder pass acts on a directory tree.

## Model

| member | source | states |
|---|---|---|
| Cleanup.UnwantedFiles | src/index.py:303-308 | a listed file is selected for removal exactly when its lower-cased `pathlib` suffix is not one of the five allowed suffixes |
| Cleanup.RemoveUnwanted | src/index.py:298-322 | the listing afterwards is the listing filtered, in order, down to the files whose lower-cased suffix is allowed; with nothing to remove it is the listing unchanged |
| Cleanup.UnwantedPartition | src/index.py:307-318 | the kept and the unlinked files split the listing: same multiset, lengths add up |
| Cleanup.UpperCaseJpgKept | src/index.py:307-308 | the suffix test ignores case: `<stem>.JPG` is kept |
| Cleanup.BareSuffixNameUnwanted | src/index.py:307-308 | a file named only `.mp4` has no `pathlib` suffix and is removed |
| Cleanup.Thumbnails | src/index.py:57 | the thumbnails are exactly the listed files whose name contains `thumbnail`, case-sensitively |
| Cleanup.RemoveThumbnails | src/index.py:51-72 | the listing afterwards holds exactly the files whose name does not contain `thumbnail` |
| Cleanup.ThumbnailPartition | src/index.py:57-70 | thumbnails and remaining files split the listing |
| Paths.Suffix | src/index.py:133 | `Path.suffix` is empty exactly when the name has no proper suffix; otherwise it is a dot plus at least one non-dot character that ends the name |
| Paths.Stem | src/index.py:99 | stem followed by suffix gives back the name, and the stem is non-empty when there is a suffix |
| Paths.SuffixOfAppend | src/index.py:99 | appending a well-formed suffix to a non-empty text gives a name with exactly that suffix and that stem |
| Paths.SplitExt | identify_pattern.py:20 | base followed by extension gives back the input |
| Paths.SplitExtShape | identify_pattern.py:20 | a non-empty extension is a dot followed by no dot and no separator |
| Paths.SplitExtBase | identify_pattern.py:20 | when an extension is split off, the base's last component holds a character other than a dot |
| Paths.SplitExtNone | identify_pattern.py:20 | when no extension is split off, no dot in the last component follows a character other than a dot |
| Text.StripEmptyIffBlank | src/index.py:97 | `not out.strip()` holds exactly when every character of the output is whitespace |
| Text.ReplaceOnce | src/index.py:147 | a single occurrence of the pattern between a text free of it and a tail that cannot start it is the only text replaced |
| Text.RemoveAllLength | src/index.py:147 | deleting every occurrence of the pattern shortens the text by a whole number of copies of the pattern |
| OrderedDict.Put | src/index.py:132 | `d[k] = v` sets the value, keeps an existing key in place and appends a new key at the end |
| OrderedDict.FromPairsKeys | src/index.py:137-138 | after a run of assignments, the keys stand in order of their first assignment |
| OrderedDict.FromPairsValue | src/index.py:132-134 | a key is present exactly when it was assigned, and it holds the value of its last assignment |
| VoiceMemos.Step | src/index.py:86-103 | one iteration on the tree as it now is: a path is returned exactly when the file is present and is a voice memo; it is then moved to its new path with its content, and every other path keeps its presence and content; otherwise nothing changes |
| VoiceMemos.Pass | src/index.py:84-103 | the loop over the listing, each step on the tree the previous one left; it returns at most one path per listed file |
| VoiceMemos.VoiceMemoPath | src/index.py:99 | the new path stays in the same directory, keeps the suffix and has `-voicememo` appended to the stem |
| VoiceMemos.VoiceMemoName | src/index.py:99 | `<x>.mp4` becomes `<x>-voicememo.mp4` |
| VoiceMemos.Processed | src/index.py:96-101 | a file keeps its content and directory, and changes path only when it is a voice memo |
| VoiceMemos.BareMp4Name | src/index.py:99 | a file named only `.mp4` has no suffix, so it becomes `.mp4-voicememo` |
| VoiceMemos.Mp4MemoName | src/index.py:99 | the new name of any `.mp4`: `-voicememo` before `.mp4`, or after the whole name when it is only `.mp4` |
| VoiceMemos.MemoNamesDiffer | src/index.py:99 | different stems before `.mp4` give different new names |
| VoiceMemos.VoiceMemoPathInjective | src/index.py:99 | two different `.mp4` paths never get the same new path |
| VoiceMemos.PassNoNewFiles | src/index.py:84-103 | renaming on disk never makes the number of files grow |
| VoiceMemos.PassMemos | src/index.py:84-103 | every returned path is the new path of a listed file, and there are no more of them than listed files |
| VoiceMemos.PassFrame | src/index.py:84-103 | a path that is neither listed nor the new path of a listed file keeps its presence and content |
| VoiceMemos.StepKeepsLater | src/index.py:96-101 | on a first run, renaming one listed file leaves another listed file and its free new path as they were |
| VoiceMemos.StepKeepsFresh | src/index.py:84-103 | on a first run, one rename neither disturbs a later listed file nor takes its new path |
| VoiceMemos.FirstKept | src/index.py:84-103 | on a first run, a file once renamed or kept is not touched again by the rest of the loop |
| VoiceMemos.PassFresh | src/index.py:74-106 | on a first run (no new path already taken), the returned list is the new paths of the voice memos in listing order, every file ends at its own processed path with its content, and no file is lost |
| VoiceMemos.RerunMergesMemo | src/index.py:84-103 | on a later run where a clip and its earlier voice memo are listed together, the clip replaces the old memo and is then renamed again: both paths are returned, the first no longer exists, and one file is lost |
| VoiceMemos.FindVoiceMemos | src/index.py:74-106 | the loop renames file after file on the tree as the earlier renames left it; it never adds files, returns only new paths of listed files, and on a first run agrees with processing each file on its own |
| VoiceMemos.PassSummary | src/index.py:74-106 | the facts about the whole pass that the loop passes on to its callers |
| VoiceMemos.RenamedIffVoiceMemo | src/index.py:97-100 | for an `.mp4` whose probe ran, the file is renamed exactly when the probe printed only whitespace |
| Duplicates.HashIndex | src/index.py:258-275 | `hash_dict` after the hashing loop: each readable file appended under its digest, in listing order, in a well-formed insertion-ordered dictionary |
| Duplicates.HashIndexGroups | src/index.py:258-275 | a digest has a group exactly when some readable file has it; its group is exactly those files, in listing order; unreadable files are in no group |
| Duplicates.HashIndexKeys | src/index.py:258-273 | the groups are ordered by the first appearance of their digest |
| Duplicates.HashIndexStep | src/index.py:273 | adding a file appends it to the group of its digest, creating the group at the end if the digest is new; an unreadable file changes nothing |
| Duplicates.CopiesPartition | src/index.py:264-278 | every readable file is either the first of its digest or a later copy, and there are as many first copies as distinct digests |
| Duplicates.SurvivorsAreFirstCopies | src/index.py:278 | the files `paths[1:]` leaves behind are exactly the first file of each digest, in listing order |
| Duplicates.ScheduledAreLaterCopies | src/index.py:278-279 | the files scheduled for unlinking are exactly the later copies, each once, and `duplicate_count` is their number |
| Duplicates.DuplicateCountSpec | src/index.py:279-283 | `duplicate_count` is the number of readable files minus the number of distinct digests; it is zero exactly when no two readable files share a digest |
| Duplicates.RemoveDuplicates | src/index.py:251-296 | when the pass removes anything, the count it logs equals the number of files unlinked, and that number is positive |
| Duplicates.RemoveDuplicatesSpec | src/index.py:277-294 | the early return happens exactly when all digests are distinct; otherwise the unlinked files are exactly the later copies |
| Duplicates.KeptDigests | src/index.py:277-294 | the files not unlinked have pairwise distinct digests, and no digest of the listing is lost |
| Duplicates.UnreadableKept | src/index.py:267-275 | a file that cannot be read is never unlinked |
| Duplicates.RemainingListing | src/index.py:251-296 | after the pass the listing is exactly the files that are not later copies: one per digest, every digest kept |
| Overlays.IdOf | src/index.py:119-130 | the identifier of a file is the leftmost 36-character run of `[0-9A-Fa-f-]` in its full path, or none; when present it has 36 characters |
| Overlays.RoleOf | src/index.py:131-134 | a file is an overlay only when its name holds `-overlay.`, and a main only when it holds `-main.`; for the image pass a main never holds `-overlay.`, since the overlay test comes first (the video pass adds a `.png` test to the overlay branch, so there it can) |
| Overlays.Catalogue | src/index.py:119-134 | `mains` or `overlays` after the classification loop: the assignments of that role replayed into an insertion-ordered dictionary, which stays well formed |
| Overlays.Pairs | src/index.py:137-139 | the comprehension over `mains.items()`; there are no more pairs than main identifiers |
| Overlays.ApplyPair | src/index.py:142-179 | one iteration of the pair loop: rename, composite, write, unlink, stopping at the first failure; it creates no path other than the pair's two outputs |
| Overlays.ApplyPairs | src/index.py:141-179 | the pair loop in order; every path afterwards was there before or is an output of some pair |
| Overlays.ProcessOverlays | src/index.py:108-179 | a whole overlay pass (image, or video at src/index.py:183-249): classify, pair, then run the pair loop; every path afterwards was there before or is an output of a pair |
| Overlays.FindId | src/index.py:126 | the search result is -1 or a position at or after the start where an identifier begins |
| Overlays.FindIdLeftmost | src/index.py:126 | no identifier starts before the position the search returns |
| Overlays.IdOfSpec | src/index.py:119-130 | a path has no identifier exactly when no 36-character run of `[0-9A-Fa-f-]` occurs in it; otherwise the identifier is the leftmost such run |
| Overlays.IdOfShape | src/index.py:119 | an identifier is 36 characters of `[0-9A-Fa-f-]` |
| Overlays.TaggedSound | src/index.py:122-134 | every catalogue assignment names a listed file of that role under that file's identifier |
| Overlays.TaggedComplete | src/index.py:122-134 | every listed file of a role that has an identifier is assigned |
| Overlays.CatalogueSpec | src/index.py:130-134 | an identifier is in `mains` or `overlays` exactly when a file of that role carries it, and it names the last such file listed |
| Overlays.RoleMain | src/index.py:133 | a main file's lower-cased suffix is one the pass accepts: `.jpg`, `.jpeg` or `.png` for images, `.mp4` for videos |
| Overlays.MainSuffix | src/index.py:133 | a main file's suffix is a proper suffix of four or five characters without a dash, and the output suffix has the same length |
| Overlays.OverlaidKeysAppend | src/index.py:137-139 | a main key added at the end is kept by the `if uuid in overlays` filter exactly when it has an overlay |
| Overlays.PairsOfIds | src/index.py:137-139 | the pair identifiers are the main keys that have an overlay, in the order of the main keys |
| Overlays.PairsOfFiles | src/index.py:137-139 | every pair holds the catalogued main and overlay of its identifier |
| Overlays.OverlaidKeysSpec | src/index.py:137-139 | the filter keeps exactly the keys that have an overlay, and keeps distinct keys distinct |
| Overlays.PairsOfSpec | src/index.py:137-139 | the pair identifiers are exactly the main keys that have an overlay, in main order, each once, and each pair holds both catalogued files |
| Overlays.PairsSpec | src/index.py:137-139 | the pairs follow the order in which the mains were first catalogued, keeping the identifiers that also have an overlay; an identifier is paired exactly when it has both; each pair holds the catalogued main and overlay; no identifier is paired twice |
| Overlays.PairFiles | src/index.py:131-139 | the two files of a pair carry the pair's identifier and have the roles main and overlay; they are different files |
| Overlays.PairedWhenBothListed | src/index.py:137-139 | a main and an overlay listed with the same identifier always lead to a pair with that identifier |
| Overlays.PairsDistinctFiles | src/index.py:137-139 | two different pairs never share a main or an overlay |
| Overlays.BaseNameSplit | src/index.py:147 | removing `-main` from a main's name only changes its stem; the suffix stays |
| Overlays.OutputLength | src/index.py:147-149 | an output name is the main's stem with every `-main` removed, then the tag, then the output suffix; when removing `-main` leaves nothing of the stem, the main's suffix stands in for the stem, so the suffix appears twice; the lengths follow: each removed `-main` takes five characters off and the tag adds its own |
| Overlays.OutputNotMain | src/index.py:147-152 | neither output path equals the main file's own path |
| Overlays.OutputsDiffer | src/index.py:148-149 | the `-original` and `-with-overlay` paths differ |
| Overlays.OutputsDistinct | src/index.py:147-152 | the two outputs differ from each other and from the main, and both sit in the main's directory |
| Overlays.CanonicalNames | src/index.py:147-149 | `X-main.ext` gives `X-original.ext` and `X-with-overlay.ext`; a video pass gives `.mp4` outputs |
| Overlays.FlattenIffJpeg | src/index.py:166-171 | an image composite is flattened onto white exactly when the main's suffix is `.jpg` or `.jpeg` in any case |
| Overlays.ApplyPairFrame | src/index.py:142-179 | one pair touches no path other than its main, its overlay and its two outputs |
| Overlays.ApplyPairMoves | src/index.py:152-176 | with outputs distinct from the main and each other, the main is moved to the original name, replacing the overlay if it sat there; on success the composite is written and the overlay removed, so the composite survives only when it was not written at the overlay's path; on failure the overlay stays, holding what the compositor would have read |
| Overlays.MoveThenWrite | src/index.py:152-176 | the map updates of one pair: after the rename and the write and unlink, each of the four paths holds what the sequence of file operations leaves there |
| Overlays.ApplyPairEffect | src/index.py:142-179 | for any main and overlay present on disk, including an overlay at an output path, the main is gone; it sits under the original name unless the overlay was there; the overlay goes exactly when compositing succeeds, and the composite then stays unless it was written at the overlay's own path |
| Overlays.LeftoverCompositeIsOverlay | src/index.py:122-134 | a composite left by an earlier image pass has a name the next image pass takes for an overlay |
| Overlays.ApplyPairsFrame | src/index.py:141-179 | the whole pair loop leaves alone any path that is no pair's main, overlay or output |
| EmptyFolders.Sweep | src/index.py:340-358 | one round: every directory below the root that is empty when the round starts is removed, and the others are kept, pruned the same way; a node keeps its name and kind |
| EmptyFolders.Trim | src/index.py:324-364 | the intended end state: every directory below the root without a file somewhere inside it is gone; a node keeps its name and kind |
| EmptyFolders.SweepHasFile | src/index.py:342-358 | a round never removes a file, so a directory that holds a file keeps holding one |
| EmptyFolders.SweepTrim | src/index.py:342-358 | a round does not change the intended end state |
| EmptyFolders.SweepShrinks | src/index.py:338-362 | a round never adds directories, and it removes at least one whenever one is empty, so the loop ends |
| EmptyFolders.SweepLeaves | src/index.py:356-358 | a round keeps every file, at the same path |
| EmptyFolders.NoEmptyHasFile | src/index.py:346-348 | a non-empty directory with no empty directory below it holds a file |
| EmptyFolders.FixpointIsTrim | src/index.py:352-353 | once a round finds nothing, the tree is the intended end state |
| EmptyFolders.NoDirsNoEmpty | src/index.py:330-334 | with no directory below the root, there is no empty one |
| EmptyFolders.RemoveEmptyFolders | src/index.py:324-364 | the root stays; afterwards no directory below it is empty; exactly the directories with a file inside remain; every file stays at its path |
| Pattern.Sub | identify_pattern.py:23-32 | one `re.sub`: scanning from the left, a match becomes the pass's token and the scan resumes after it, other characters are copied; the result is empty exactly when the input is |
| Pattern.RewriteBase | identify_pattern.py:22-32 | the four passes in order (date, UUID, base64, digits) over the base; empty exactly when the base is |
| Pattern.ExtractPattern | identify_pattern.py:11-34 | `os.path.splitext`, the rewrite of the base, and the extension appended back; empty exactly when the name is |
| Pattern.MatchLen | identify_pattern.py:23-32 | the match of each pass at the front of a text never runs past its end; no pass matches an empty string |
| Pattern.TokenInert | identify_pattern.py:22-32 | no pass ever matches inside a text of at most 20 characters that holds no digit and ends in `>` (such as `<date>`, `<uuid>` or `<num>`), whatever follows it: the pass copies it and goes on after it |
| Pattern.NoDateInUuid | identify_pattern.py:23-26 | no date fits anywhere inside a UUID |
| Pattern.Base64LeavesShortRuns | identify_pattern.py:29 | after the base64 pass, no run of twenty or more `[A-Za-z0-9+/=_-]` characters is left |
| Pattern.DigitsKeepShortRuns | identify_pattern.py:32 | the digit pass creates no run of twenty or more such characters |
| Pattern.DigitsLeaveNoDigit | identify_pattern.py:32 | after the digit pass no digit is left |
| Pattern.RewriteBaseNoDigit | identify_pattern.py:22-32 | the rewritten base contains no digit |
| Pattern.RewriteBaseQuiet | identify_pattern.py:22-32 | a base with no digit and no run of twenty such characters comes back unchanged |
| Pattern.RewriteBaseIdempotent | identify_pattern.py:22-32 | rewriting a rewritten base changes nothing |
| Pattern.DateRewritten | identify_pattern.py:23 | a leading `YYYY-MM-DD` becomes `<date>`, before the digit pass could see it, and the rest is rewritten on its own |
| Pattern.UuidRewritten | identify_pattern.py:26 | a UUID in 8-4-4-4-12 form, hex digits in either case, becomes `<uuid>` |
| Pattern.UuidCaseInsensitive | identify_pattern.py:26 | the UUID pass matches a text and its lower-case form alike |
| Pattern.Base64Collapses | identify_pattern.py:29 | a maximal run of twenty or more base64-class characters becomes one `<base64>` |
| Pattern.Base64TokenRenumbered | identify_pattern.py:29-32 | the digit pass then rewrites the `64` inside that token, giving `<base<num>>` |
| Pattern.LetterRunRewritten | identify_pattern.py:22-32 | a base that is one run of twenty or more letters and `+/=_` ends up as `<base<num>>` |
| Pattern.RewriteBaseShape | identify_pattern.py:22-32 | the rewrite keeps "dots only at the front" and keeps "some character is not a dot" |
| Pattern.RewriteBaseNoChar | identify_pattern.py:22-32 | the rewrite introduces no dot and no slash |
| Pattern.SplitExtNoExt | identify_pattern.py:20 | a slash-free name whose dots all come first has no extension |
| Pattern.SplitExtJoin | identify_pattern.py:20 | a slash-free base with a non-dot character, followed by an extension, splits back into the two |
| Pattern.ExtractPatternSplit | identify_pattern.py:20-34 | for a file name without `/`, the pattern splits into the rewritten base and the name's own extension |
| Pattern.ExtractPatternIdempotent | identify_pattern.py:11-34 | for a file name without `/`, the pattern of a pattern is the pattern itself |
| Pattern.UuidSkipsSeparator | identify_pattern.py:26 | no UUID match starts at `_` |
| Pattern.UuidAtFront | identify_pattern.py:26 | a UUID at the front becomes `<uuid>`, and a rest with no digit and no long run is copied |
| Pattern.UuidPassAfterSeparator | identify_pattern.py:26 | `_<uuid-text><rest>` becomes `_<uuid><rest>` under the UUID pass |
| Pattern.Base64PassAfterSeparator | identify_pattern.py:29 | the base64 pass leaves `_<uuid><rest>` alone |
| Pattern.DigitsPassAfterSeparator | identify_pattern.py:32 | the digit pass leaves `_<uuid><rest>` alone |
| Pattern.ExportBaseRewritten | identify_pattern.py:22-32 | the base `YYYY-MM-DD_<uuid-text><rest>` becomes `<date>_<uuid><rest>` |
| Pattern.ExportNameRewritten | identify_pattern.py:11-34 | an export name `YYYY-MM-DD_<uuid-text><rest><ext>` has the pattern `<date>_<uuid><rest><ext>` |
| Pattern.ExportMainNameRewritten | identify_pattern.py:11-34 | a main file's name `YYYY-MM-DD_<uuid-text>-main<ext>` has the pattern `<date>_<uuid>-main<ext>` |

## Left out

- Zip extraction (`extract_snapchat_data`), `main`, logging and the tqdm progress bars: these are I/O and reporting only.
- `analyze_directory`, `print_tree` and the command line of `identify_pattern.py`: directory walking and printing around `extract_pattern`.
- Image pixels, resizing, alpha compositing, JPEG encoding and `ffmpeg`: the single `render` parameter stands for them. A failed `ffmpeg` run is modelled as writing nothing, although it may leave a partial output file.
- SHA-256 itself: it is the parameter `sha256`, so two different contents with the same digest are treated as duplicates, as the program does.
- `ffprobe`: it is the parameter `probe`.
- Failures of `unlink`, `rename` and `rmdir`: these are taken to succeed. The modelled failures of `rename` are a source that is no longer present: a main in the overlay passes, a listed `.mp4` in the voice-memo pass.
- EmptyFolders.RemoveEmptyFolders: its termination (`decreases DirsBelow`) rests on every `rmdir` succeeding. If an `rmdir` of an empty directory failed (permissions, say), the `while True` at src/index.py:338-353 would find the same directory in every round and never end; the model does not cover that case.
- Windows paths: the model follows POSIX `posixpath.splitext`, `/` as the only separator and case-sensitive `rglob` matching. Windows `ntpath` rules (`\` separators, drive letters) and the case-insensitive globbing of `rglob` on Windows are not modelled.
- `rglob` yields directories as well as files. A directory whose name contains `thumbnail` is passed to `unlink`, which raises; the error is logged and the directory stays. A directory whose name ends in `.mp4` is probed and may be renamed. The listings here hold files only.
- `str.lower` is ASCII case folding. The suffix sets it is compared against are ASCII, so only exotic non-ASCII names could behave differently.
- `\d` is taken as the ASCII digits. Python's `re` also accepts other Unicode decimal digits.
- `Path.suffix` follows Python up to 3.13, where a name ending in a dot has no suffix.
- Duplicates.RemainingListing: requires a listing without repeated entries. `rglob` never yields a path twice, so the real listing always meets this.
- Pattern.ExtractPatternSplit: requires a name without `/`. `extract_pattern` is called on the names of directory entries, which never contain one.
- Pattern.ExtractPatternIdempotent: requires a name without `/`, for the same reason.

=== FILE: cleanup.dfy ===
/** The two deletion passes that only look at names: `remove_unwanted_files`
    (keep the five media suffixes) and `remove_thumbnails`. Each pass lists
    the files to unlink; the listing that remains is what the next pass
    enumerates. */
module Cleanup {
  import opened Text
  import opened Paths
  import opened Files
  import opened Seqs

  /** `allowed_extensions` */
  const AllowedSuffixes: set<string> := {".webp", ".png", ".jpeg", ".jpg", ".mp4"}

  /** `f.suffix.lower() in allowed_extensions` */
  predicate IsWanted(e: Entry) {
    Lower(Suffix(e.path.name)) in AllowedSuffixes
  }

  predicate IsUnwanted(e: Entry) {
    !IsWanted(e)
  }

  /** The files `remove_unwanted_files` unlinks, in enumeration order. */
  function UnwantedFiles(files: seq<Entry>): (r: seq<Entry>)
    ensures forall e :: e in r <==> e in files && Lower(Suffix(e.path.name)) !in AllowedSuffixes
  {
    Filter(files, IsUnwanted)
  }

  /** The listing once the unwanted files are gone; when there are none the
      pass returns early and the listing is untouched. Either way the kept
      files stay in their enumeration order. */
  function RemoveUnwanted(files: seq<Entry>): (r: seq<Entry>)
    ensures forall e :: e in r <==> e in files && Lower(Suffix(e.path.name)) in AllowedSuffixes
    ensures UnwantedFiles(files) == [] ==> r == files
    ensures r == Filter(files, IsWanted)
  {
    if UnwantedFiles(files) == [] then
      assert forall e :: e in files ==> IsWanted(e);
      FilterAll(files, IsWanted);
      files
    else Filter(files, IsWanted)
  }

  /** Every file ends up either kept or unlinked, never both and never
      neither: the two lists split the enumeration. */
  lemma UnwantedPartition(files: seq<Entry>)
    ensures multiset(RemoveUnwanted(files)) + multiset(UnwantedFiles(files)) == multiset(files)
    ensures |RemoveUnwanted(files)| + |UnwantedFiles(files)| == |files|
  {
    FilterPartition(files, IsWanted, IsUnwanted);
    if UnwantedFiles(files) == [] {
      assert Filter(files, IsWanted) == files by {
        FilterAll(files, IsWanted);
      }
    }
  }

  /** The suffix test ignores case: a name ending in `.JPG` is kept. */
  lemma UpperCaseJpgKept(parent: string, stem: string, c: Content)
    requires |stem| > 0
    ensures IsWanted(Entry(FilePath(parent, stem + ".JPG"), c))
  {
    SuffixOfAppend(stem, ".JPG");
    assert Lower(".JPG") == ".jpg";
  }

  /** A name that is only a suffix, such as `.mp4`, has no suffix for
      `pathlib` and is unlinked. */
  lemma BareSuffixNameUnwanted(parent: string, c: Content)
    ensures IsUnwanted(Entry(FilePath(parent, ".mp4"), c))
  {
    assert ".mp4"[..3] == ".mp" && ".mp"[..2] == ".m" && ".m"[..1] == ".";
    assert RFind(".", '.') == 0;
    assert RFind(".mp4", '.') == RFind(".mp", '.') == RFind(".m", '.') == 0;
  }

  /** `tmp_dir.rglob('*thumbnail*')`: a case-sensitive test on the name. */
  predicate IsThumbnail(e: Entry) {
    Contains(e.path.name, "thumbnail")
  }

  predicate IsNotThumbnail(e: Entry) {
    !IsThumbnail(e)
  }

  /** The files `remove_thumbnails` unlinks. */
  function Thumbnails(files: seq<Entry>): (r: seq<Entry>)
    ensures forall e :: e in r <==> e in files && Contains(e.path.name, "thumbnail")
  {
    Filter(files, IsThumbnail)
  }

  /** The listing once the thumbnails are gone. */
  function RemoveThumbnails(files: seq<Entry>): (r: seq<Entry>)
    ensures forall e :: e in r <==> e in files && !Contains(e.path.name, "thumbnail")
  {
    Filter(files, IsNotThumbnail)
  }

  /** Thumbnails and the remaining files split the enumeration. */
  lemma ThumbnailPartition(files: seq<Entry>)
    ensures multiset(RemoveThumbnails(files)) + multiset(Thumbnails(files)) == multiset(files)
    ensures |RemoveThumbnails(files)| + |Thumbnails(files)| == |files|
  {
    FilterPartition(files, IsNotThumbnail, IsThumbnail);
  }
}

=== FILE: duplicates.dfy ===
/** `remove_duplicates`: files are grouped by the SHA-256 digest of their
    bytes, in enumeration order; in every group the first file listed
    survives and the rest are unlinked. The hash function is a parameter
    (`sha256`), so nothing depends on how SHA-256 computes. */
module Duplicates {
  import opened Options
  import opened Seqs
  import opened Files
  import opened OrderedDict

  /** `sha256_hash.hexdigest()` */
  type Digest = string

  /** The digest of a file, or `None` when opening or reading it raises (the
      file is then logged and left out of every group). */
  function DigestOf(e: Entry, sha256: seq<byte> -> Digest): Option<Digest> {
    match e.content
    case Bytes(b) => Some(sha256(b))
    case Unreadable => None
  }

  /** The digests of the hashable files, in enumeration order. */
  function Digests(files: seq<Entry>, sha256: seq<byte> -> Digest): seq<Digest>
    decreases |files|
  {
    if files == [] then []
    else
      var init := Digests(files[..|files| - 1], sha256);
      match DigestOf(files[|files| - 1], sha256)
      case Some(h) => init + [h]
      case None => init
  }

  /** The files with digest `h`, in enumeration order. */
  function WithDigest(files: seq<Entry>, sha256: seq<byte> -> Digest, h: Digest): seq<Entry>
    decreases |files|
  {
    if files == [] then []
    else
      var init := WithDigest(files[..|files| - 1], sha256, h);
      var e := files[|files| - 1];
      if DigestOf(e, sha256) == Some(h) then init + [e] else init
  }

  lemma {:induction false} WithDigestEmpty(files: seq<Entry>, sha256: seq<byte> -> Digest, h: Digest)
    ensures WithDigest(files, sha256, h) == [] <==> h !in Digests(files, sha256)
    decreases |files|
  {
    if files != [] {
      WithDigestEmpty(files[..|files| - 1], sha256, h);
    }
  }

  /** `hash_dict[digest].append(file_path)` over the enumeration; a
      `defaultdict(list)` keeps digests in order of first appearance. */
  function HashIndex(files: seq<Entry>, sha256: seq<byte> -> Digest): (d: Dict<Digest, seq<Entry>>)
    ensures d.Valid()
    decreases |files|
  {
    if files == [] then Empty()
    else
      var d := HashIndex(files[..|files| - 1], sha256);
      var e := files[|files| - 1];
      match DigestOf(e, sha256)
      case Some(h) => Put(d, h, (if h in d.values then d.values[h] else []) + [e])
      case None => d
  }

  /** Each digest seen names a group, and the group of `h` is exactly the
      files with digest `h`, in enumeration order: a hashable file sits in
      the one group of its digest, an unhashable one in none. */
  lemma {:induction false} HashIndexGroups(files: seq<Entry>, sha256: seq<byte> -> Digest, h: Digest)
    ensures h in HashIndex(files, sha256).values <==> h in Digests(files, sha256)
    ensures h in HashIndex(files, sha256).values ==>
      HashIndex(files, sha256).values[h] == WithDigest(files, sha256, h) != []
    decreases |files|
  {
    if files != [] {
      var init := files[..|files| - 1];
      var e := files[|files| - 1];
      HashIndexGroups(init, sha256, h);
      WithDigestEmpty(init, sha256, h);
      var d0 := HashIndex(init, sha256);
      match DigestOf(e, sha256)
      case Some(h') =>
        var g := (if h' in d0.values then d0.values[h'] else []) + [e];
        assert HashIndex(files, sha256) == Put(d0, h', g);
        assert Digests(files, sha256) == Digests(init, sha256) + [h'];
        if h' == h {
          assert WithDigest(files, sha256, h) == WithDigest(init, sha256, h) + [e];
        } else {
          assert WithDigest(files, sha256, h) == WithDigest(init, sha256, h);
        }
      case None =>
        assert HashIndex(files, sha256) == d0;
        assert Digests(files, sha256) == Digests(init, sha256);
        assert WithDigest(files, sha256, h) == WithDigest(init, sha256, h);
    }
  }

  /** Groups are listed in order of the first appearance of their digest. */
  lemma {:induction false} HashIndexKeys(files: seq<Entry>, sha256: seq<byte> -> Digest)
    ensures HashIndex(files, sha256).keys == FirstOccurrences(Digests(files, sha256))
    decreases |files|
  {
    if files != [] {
      var init := files[..|files| - 1];
      var e := files[|files| - 1];
      HashIndexKeys(init, sha256);
      match DigestOf(e, sha256)
      case Some(h) =>
        HashIndexGroups(init, sha256, h);
        FirstOccurrencesAppend(Digests(init, sha256), h);
      case None =>
    }
  }

  /** A file is a later copy when a file listed before it had the same
      digest. */
  predicate SeenBefore(earlier: seq<Entry>, e: Entry, sha256: seq<byte> -> Digest) {
    DigestOf(e, sha256).Some? && DigestOf(e, sha256).value in Digests(earlier, sha256)
  }

  /** The hashable files whose digest no earlier file had. */
  function FirstCopies(files: seq<Entry>, sha256: seq<byte> -> Digest): seq<Entry>
    decreases |files|
  {
    if files == [] then []
    else
      var init := files[..|files| - 1];
      var e := files[|files| - 1];
      if DigestOf(e, sha256).Some? && !SeenBefore(init, e, sha256)
      then FirstCopies(init, sha256) + [e] else FirstCopies(init, sha256)
  }

  /** The files whose digest an earlier file already had. */
  function LaterCopies(files: seq<Entry>, sha256: seq<byte> -> Digest): seq<Entry>
    decreases |files|
  {
    if files == [] then []
    else
      var init := files[..|files| - 1];
      var e := files[|files| - 1];
      if SeenBefore(init, e, sha256)
      then LaterCopies(init, sha256) + [e] else LaterCopies(init, sha256)
  }

  /** The hashable files. */
  function Hashed(files: seq<Entry>, sha256: seq<byte> -> Digest): (r: seq<Entry>)
    ensures |r| == |Digests(files, sha256)|
    decreases |files|
  {
    if files == [] then []
    else
      var init := files[..|files| - 1];
      var e := files[|files| - 1];
      if DigestOf(e, sha256).Some? then Hashed(init, sha256) + [e] else Hashed(init, sha256)
  }

  /** Every hashable file is either the first of its digest or a later copy,
      and there are as many first copies as distinct digests. */
  lemma {:induction false} CopiesPartition(files: seq<Entry>, sha256: seq<byte> -> Digest)
    ensures multiset(FirstCopies(files, sha256)) + multiset(LaterCopies(files, sha256))
            == multiset(Hashed(files, sha256))
    ensures |FirstCopies(files, sha256)| == |FirstOccurrences(Digests(files, sha256))|
    decreases |files|
  {
    if files != [] {
      var init := files[..|files| - 1];
      var e := files[|files| - 1];
      CopiesPartition(init, sha256);
      if DigestOf(e, sha256).Some? {
        FirstOccurrencesAppend(Digests(init, sha256), DigestOf(e, sha256).value);
      }
    }
  }

  /** Every listed key has a non-empty group. */
  ghost predicate Grouped(keys: seq<Digest>, values: map<Digest, seq<Entry>>) {
    forall i :: 0 <= i < |keys| ==> keys[i] in values && values[keys[i]] != []
  }

  /** The survivors `paths[0]`: the first file of every group, in group
      order. */
  function Heads(keys: seq<Digest>, values: map<Digest, seq<Entry>>): seq<Entry>
    requires Grouped(keys, values)
    decreases |keys|
  {
    if keys == [] then []
    else Heads(keys[..|keys| - 1], values) + [values[keys[|keys| - 1]][0]]
  }

  /** `paths[1:]` for every group with `len(paths) > 1`, concatenated in
      group order: the files the removal loop unlinks, in that order. */
  function Tails(keys: seq<Digest>, values: map<Digest, seq<Entry>>): seq<Entry>
    requires Grouped(keys, values)
    decreases |keys|
  {
    if keys == [] then []
    else
      var g := values[keys[|keys| - 1]];
      Tails(keys[..|keys| - 1], values) + (if |g| > 1 then g[1..] else [])
  }

  /** `sum(len(dups) for dups in duplicates)` */
  function CountTails(keys: seq<Digest>, values: map<Digest, seq<Entry>>): nat
    requires Grouped(keys, values)
    decreases |keys|
  {
    if keys == [] then 0
    else
      var g := values[keys[|keys| - 1]];
      CountTails(keys[..|keys| - 1], values) + (if |g| > 1 then |g| - 1 else 0)
  }

  lemma {:induction false} CountTailsLength(keys: seq<Digest>, values: map<Digest, seq<Entry>>)
    requires Grouped(keys, values)
    ensures CountTails(keys, values) == |Tails(keys, values)|
    decreases |keys|
  {
    if keys != [] {
      CountTailsLength(keys[..|keys| - 1], values);
    }
  }

  /** Heads and tails read only the groups of listed keys. */
  lemma {:induction false} GroupsFrame(keys: seq<Digest>, v: map<Digest, seq<Entry>>, v': map<Digest, seq<Entry>>)
    requires Grouped(keys, v)
    requires forall i :: 0 <= i < |keys| ==> keys[i] in v' && v'[keys[i]] == v[keys[i]]
    ensures Grouped(keys, v')
    ensures Heads(keys, v') == Heads(keys, v)
    ensures Tails(keys, v') == Tails(keys, v)
    decreases |keys|
  {
    if keys != [] {
      GroupsFrame(keys[..|keys| - 1], v, v');
    }
  }

  /** Appending a file to one group keeps every group's head. */
  lemma {:induction false} GroupsGrowHeads(keys: seq<Digest>, v: map<Digest, seq<Entry>>, h: Digest, e: Entry)
    requires Grouped(keys, v) && h in v
    ensures Grouped(keys, v[h := v[h] + [e]])
    ensures Heads(keys, v[h := v[h] + [e]]) == Heads(keys, v)
    decreases |keys|
  {
    if keys != [] {
      GroupsGrowHeads(keys[..|keys| - 1], v, h, e);
    }
  }

  lemma DistinctInit(keys: seq<Digest>)
    requires Distinct(keys) && keys != []
    ensures Distinct(keys[..|keys| - 1])
    ensures keys[|keys| - 1] !in keys[..|keys| - 1]
  {
  }

  /** The group that grows is the last one listed. */
  lemma GrowLastGroup(keys: seq<Digest>, v: map<Digest, seq<Entry>>, e: Entry)
    requires keys != [] && Grouped(keys, v)
    requires keys[|keys| - 1] !in keys[..|keys| - 1]
    ensures var h := keys[|keys| - 1];
            Grouped(keys, v[h := v[h] + [e]])
            && multiset(Tails(keys, v[h := v[h] + [e]])) == multiset(Tails(keys, v)) + multiset{e}
  {
    var init := keys[..|keys| - 1];
    var h := keys[|keys| - 1];
    var v' := v[h := v[h] + [e]];
    GroupsGrowHeads(keys, v, h, e);
    GroupsFrame(init, v, v');
    var g := v[h];
    var t := if |g| > 1 then g[1..] else [];
    assert (g + [e])[1..] == t + [e];
    assert Tails(keys, v') == Tails(init, v) + (t + [e]);
    assert Tails(keys, v) == Tails(init, v) + t;
  }

  /** Appending a file to the group of a listed key adds that file to the
      tails and nothing else. */
  lemma {:induction false} GroupsGrowTails(keys: seq<Digest>, v: map<Digest, seq<Entry>>, h: Digest, e: Entry)
    requires Grouped(keys, v) && Distinct(keys) && h in keys
    ensures Grouped(keys, v[h := v[h] + [e]])
    ensures multiset(Tails(keys, v[h := v[h] + [e]])) == multiset(Tails(keys, v)) + multiset{e}
    decreases |keys|
  {
    var init := keys[..|keys| - 1];
    DistinctInit(keys);
    if keys[|keys| - 1] == h {
      GrowLastGroup(keys, v, e);
    } else {
      var v' := v[h := v[h] + [e]];
      GroupsGrowHeads(keys, v, h, e);
      assert h in init;
      GroupsGrowTails(init, v, h, e);
      assert Tails(keys, v') == Tails(init, v') + v[keys[|keys| - 1]][1..];
    }
  }

  /** Every digest of the index has a non-empty group. */
  lemma HashIndexGrouped(files: seq<Entry>, sha256: seq<byte> -> Digest)
    ensures Grouped(HashIndex(files, sha256).keys, HashIndex(files, sha256).values)
  {
    var d := HashIndex(files, sha256);
    forall i | 0 <= i < |d.keys| ensures d.keys[i] in d.values && d.values[d.keys[i]] != [] {
      HashIndexGroups(files, sha256, d.keys[i]);
    }
  }

  /** The files the removal loop unlinks, in the order it unlinks them. */
  function Scheduled(files: seq<Entry>, sha256: seq<byte> -> Digest): seq<Entry> {
    var d := HashIndex(files, sha256);
    HashIndexGrouped(files, sha256);
    Tails(d.keys, d.values)
  }

  /** `duplicate_count` */
  function DuplicateCount(files: seq<Entry>, sha256: seq<byte> -> Digest): nat {
    var d := HashIndex(files, sha256);
    HashIndexGrouped(files, sha256);
    CountTails(d.keys, d.values)
  }

  /** The surviving file of every group, in group order. */
  function GroupSurvivors(files: seq<Entry>, sha256: seq<byte> -> Digest): seq<Entry> {
    var d := HashIndex(files, sha256);
    HashIndexGrouped(files, sha256);
    Heads(d.keys, d.values)
  }

  /** One step of the index: how adding a file changes it. */
  lemma HashIndexStep(files: seq<Entry>, sha256: seq<byte> -> Digest)
    requires files != []
    ensures var init := files[..|files| - 1];
            var e := files[|files| - 1];
            var d0 := HashIndex(init, sha256);
            var d := HashIndex(files, sha256);
            match DigestOf(e, sha256)
            case None => d == d0
            case Some(h) =>
              (h in d0.values <==> SeenBefore(init, e, sha256))
              && (h in d0.values ==> d.keys == d0.keys && d.values == d0.values[h := d0.values[h] + [e]])
              && (h !in d0.values ==> d.keys == d0.keys + [h] && d.values == d0.values[h := [e]])
  {
    var init := files[..|files| - 1];
    var e := files[|files| - 1];
    var d0 := HashIndex(init, sha256);
    match DigestOf(e, sha256)
    case Some(h) =>
      HashIndexGroups(init, sha256, h);
      if h !in d0.values {
        assert [] + [e] == [e];
      }
    case None =>
  }

  /** Survivor rule: the survivors are exactly the files whose digest no
      earlier file had, in enumeration order, which is also group order. */
  lemma {:induction false} SurvivorsAreFirstCopies(files: seq<Entry>, sha256: seq<byte> -> Digest)
    ensures GroupSurvivors(files, sha256) == FirstCopies(files, sha256)
    decreases |files|
  {
    if files != [] {
      var init := files[..|files| - 1];
      var e := files[|files| - 1];
      SurvivorsAreFirstCopies(init, sha256);
      HashIndexStep(files, sha256);
      HashIndexGrouped(init, sha256);
      var d0 := HashIndex(init, sha256);
      match DigestOf(e, sha256)
      case None =>
      case Some(h) =>
        if h in d0.values {
          GroupsGrowHeads(d0.keys, d0.values, h, e);
        } else {
          GroupsFrame(d0.keys, d0.values, d0.values[h := [e]]);
        }
    }
  }

  /** Deletion rule: the files scheduled for unlinking are exactly the
      files whose digest an earlier file had, each once. */
  lemma {:induction false} ScheduledAreLaterCopies(files: seq<Entry>, sha256: seq<byte> -> Digest)
    ensures multiset(Scheduled(files, sha256)) == multiset(LaterCopies(files, sha256))
    ensures DuplicateCount(files, sha256) == |Scheduled(files, sha256)|
    decreases |files|
  {
    var d := HashIndex(files, sha256);
    HashIndexGrouped(files, sha256);
    CountTailsLength(d.keys, d.values);
    if files != [] {
      var init := files[..|files| - 1];
      var e := files[|files| - 1];
      ScheduledAreLaterCopies(init, sha256);
      HashIndexStep(files, sha256);
      HashIndexGrouped(init, sha256);
      var d0 := HashIndex(init, sha256);
      match DigestOf(e, sha256)
      case None =>
      case Some(h) =>
        if h in d0.values {
          assert h in d0.keys;
          GroupsGrowTails(d0.keys, d0.values, h, e);
        } else {
          GroupsFrame(d0.keys, d0.values, d0.values[h := [e]]);
        }
    }
  }

  /** `duplicate_count` is the number of hashable files minus the number of
      distinct digests, so it is zero exactly when no two hashable files
      share a digest. */
  lemma DuplicateCountSpec(files: seq<Entry>, sha256: seq<byte> -> Digest)
    ensures DuplicateCount(files, sha256)
            == |Digests(files, sha256)| - |FirstOccurrences(Digests(files, sha256))|
    ensures DuplicateCount(files, sha256) == 0 <==> Distinct(Digests(files, sha256))
  {
    var ds := Digests(files, sha256);
    assert DuplicateCount(files, sha256) == |LaterCopies(files, sha256)| by {
      ScheduledAreLaterCopies(files, sha256);
      assert |multiset(Scheduled(files, sha256))| == |multiset(LaterCopies(files, sha256))|;
    }
    assert |LaterCopies(files, sha256)| == |ds| - |FirstOccurrences(ds)| by {
      CopiesPartition(files, sha256);
      assert |multiset(Hashed(files, sha256))| == |Hashed(files, sha256)|;
    }
    FirstOccurrencesLength(ds);
  }

  /** The outcome of `remove_duplicates`: the early return when
      `duplicate_count` is zero, or the files unlinked and the count
      logged. */
  datatype Dedup = NoDuplicates | Removed(unlinked: seq<Entry>, count: nat)

  /** `remove_duplicates` over the listing `files` (every regular file below
      `tmp`, in `rglob` order). */
  function RemoveDuplicates(files: seq<Entry>, sha256: seq<byte> -> Digest): (r: Dedup)
    ensures r.Removed? ==> r.count == |r.unlinked| > 0
  {
    ScheduledAreLaterCopies(files, sha256);
    var n := DuplicateCount(files, sha256);
    if n == 0 then NoDuplicates else Removed(Scheduled(files, sha256), n)
  }

  /** Nothing is removed exactly when no two hashable files share a
      digest; otherwise the unlinked files are exactly the later copies,
      each unlinked once. */
  lemma RemoveDuplicatesSpec(files: seq<Entry>, sha256: seq<byte> -> Digest)
    ensures RemoveDuplicates(files, sha256).NoDuplicates? <==> Distinct(Digests(files, sha256))
    ensures RemoveDuplicates(files, sha256).Removed? ==>
      multiset(RemoveDuplicates(files, sha256).unlinked) == multiset(LaterCopies(files, sha256))
  {
    DuplicateCountSpec(files, sha256);
    ScheduledAreLaterCopies(files, sha256);
  }

  /** `xs` without the members of `ys`. */
  function Without(xs: seq<Entry>, ys: seq<Entry>): seq<Entry>
    decreases |xs|
  {
    if xs == [] then []
    else
      var x := xs[|xs| - 1];
      Without(xs[..|xs| - 1], ys) + (if x in ys then [] else [x])
  }

  /** The listing once `remove_duplicates` has returned. */
  function Remaining(files: seq<Entry>, r: Dedup): seq<Entry> {
    match r
    case NoDuplicates => files
    case Removed(unlinked, _) => Without(files, unlinked)
  }

  /** The files of the listing that are not a later copy: every first copy
      and every file that could not be hashed, in enumeration order. */
  function Kept(files: seq<Entry>, sha256: seq<byte> -> Digest): seq<Entry>
    decreases |files|
  {
    if files == [] then []
    else
      var init := files[..|files| - 1];
      var e := files[|files| - 1];
      Kept(init, sha256) + (if SeenBefore(init, e, sha256) then [] else [e])
  }

  lemma {:induction false} LaterCopiesListed(files: seq<Entry>, sha256: seq<byte> -> Digest)
    ensures forall e :: e in LaterCopies(files, sha256) ==> e in files
    decreases |files|
  {
    if files != [] {
      LaterCopiesListed(files[..|files| - 1], sha256);
    }
  }

  lemma {:induction false} WithoutFrame(xs: seq<Entry>, ys: seq<Entry>, ys': seq<Entry>)
    requires forall i :: 0 <= i < |xs| ==> (xs[i] in ys <==> xs[i] in ys')
    ensures Without(xs, ys) == Without(xs, ys')
    decreases |xs|
  {
    if xs != [] {
      WithoutFrame(xs[..|xs| - 1], ys, ys');
    }
  }

  lemma {:induction false} WithoutNothing(xs: seq<Entry>)
    ensures Without(xs, []) == xs
    decreases |xs|
  {
    if xs != [] {
      WithoutNothing(xs[..|xs| - 1]);
    }
  }

  /** On a listing without repeats, removing the later copies by identity
      leaves exactly the files that are not later copies by position. */
  lemma {:induction false} WithoutLaterCopies(files: seq<Entry>, sha256: seq<byte> -> Digest)
    requires Distinct(files)
    ensures Without(files, LaterCopies(files, sha256)) == Kept(files, sha256)
    decreases |files|
  {
    if files != [] {
      var init := files[..|files| - 1];
      var e := files[|files| - 1];
      assert Distinct(init);
      assert e !in init by {
        forall k | 0 <= k < |init| ensures init[k] != e {
          assert files[k] != files[|files| - 1];
        }
      }
      WithoutLaterCopies(init, sha256);
      LaterCopiesListed(init, sha256);
      WithoutFrame(init, LaterCopies(files, sha256), LaterCopies(init, sha256));
    }
  }

  lemma DigestsAppend(files: seq<Entry>, e: Entry, sha256: seq<byte> -> Digest)
    ensures Digests(files + [e], sha256)
            == Digests(files, sha256) + (if DigestOf(e, sha256).Some? then [DigestOf(e, sha256).value] else [])
  {
    assert (files + [e])[..|files|] == files;
  }

  /** The files kept have pairwise distinct digests, and every digest of the
      listing is still present. */
  lemma {:induction false} KeptDigests(files: seq<Entry>, sha256: seq<byte> -> Digest)
    ensures Distinct(Digests(Kept(files, sha256), sha256))
    ensures forall h :: h in Digests(Kept(files, sha256), sha256) <==> h in Digests(files, sha256)
    decreases |files|
  {
    if files != [] {
      var init := files[..|files| - 1];
      var e := files[|files| - 1];
      var k0 := Kept(init, sha256);
      KeptDigests(init, sha256);
      assert files == init + [e];
      DigestsAppend(init, e, sha256);
      if SeenBefore(init, e, sha256) {
        assert Kept(files, sha256) == k0;
      } else {
        assert Kept(files, sha256) == k0 + [e];
        DigestsAppend(k0, e, sha256);
        if DigestOf(e, sha256).Some? {
          DistinctAppend(Digests(k0, sha256), DigestOf(e, sha256).value);
        } else {
          assert Digests(k0 + [e], sha256) == Digests(k0, sha256) + [];
        }
      }
    }
  }

  /** A file that cannot be hashed is never removed. */
  lemma {:induction false} UnreadableKept(files: seq<Entry>, sha256: seq<byte> -> Digest, e: Entry)
    requires e in files && e.content.Unreadable?
    ensures e in Kept(files, sha256)
    decreases |files|
  {
    var init := files[..|files| - 1];
    if e != files[|files| - 1] {
      assert files == init + [files[|files| - 1]];
      UnreadableKept(init, sha256, e);
    }
  }

  /** After `remove_duplicates`, the listing holds exactly the files that
      are not later copies: one file per digest, no digest lost, and every
      unhashable file still there. */
  lemma RemainingListing(files: seq<Entry>, sha256: seq<byte> -> Digest)
    requires Distinct(files)
    ensures Remaining(files, RemoveDuplicates(files, sha256)) == Kept(files, sha256)
    ensures Distinct(Digests(Remaining(files, RemoveDuplicates(files, sha256)), sha256))
    ensures forall h :: h in Digests(Remaining(files, RemoveDuplicates(files, sha256)), sha256)
                        <==> h in Digests(files, sha256)
  {
    var r := RemoveDuplicates(files, sha256);
    RemoveDuplicatesSpec(files, sha256);
    ScheduledAreLaterCopies(files, sha256);
    WithoutLaterCopies(files, sha256);
    KeptDigests(files, sha256);
    var later := LaterCopies(files, sha256);
    match r
    case NoDuplicates =>
      assert |Scheduled(files, sha256)| == 0;
      assert |multiset(later)| == 0;
      assert later == [];
      WithoutNothing(files);
    case Removed(unlinked, _) =>
      forall i | 0 <= i < |files| ensures files[i] in unlinked <==> files[i] in later {
        assert files[i] in unlinked <==> files[i] in multiset(unlinked);
      }
      WithoutFrame(files, unlinked, later);
  }
}

=== FILE: empty_folders.dfy ===
/** `remove_empty_folders`: rounds of "list every directory below `tmp`
    that is empty, then remove them all", until a round finds none. The
    directory `tmp` itself is never listed, so it stays. */
module EmptyFolders {

  /** A directory tree; `tmp` is the root. */
  datatype Node = File(name: string) | Dir(name: string, children: seq<Node>)

  /** `not list(dir_path.iterdir())` */
  predicate IsEmptyDir(n: Node) {
    n.Dir? && n.children == []
  }

  /** Some directory strictly below `n` is empty: a round would find it. */
  predicate HasEmptyBelow(n: Node)
    decreases n
  {
    n.Dir? && HasEmptyAmong(n.children)
  }

  /** Some node of `cs` is an empty directory or has one below it. */
  predicate HasEmptyAmong(cs: seq<Node>)
    decreases cs
  {
    cs != [] && (IsEmptyDir(cs[0]) || HasEmptyBelow(cs[0]) || HasEmptyAmong(cs[1..]))
  }

  /** The number of directories strictly below `n`: `len(all_dirs)`. */
  function DirsBelow(n: Node): nat
    decreases n
  {
    match n
    case File(_) => 0
    case Dir(_, cs) => DirsAmong(cs)
  }

  /** The number of directories in `cs` and below them. */
  function DirsAmong(cs: seq<Node>): nat
    decreases cs
  {
    if cs == [] then 0
    else (if cs[0].Dir? then 1 else 0) + DirsBelow(cs[0]) + DirsAmong(cs[1..])
  }

  /** One round below `n`: every directory that is empty when the round
      starts is removed; a directory emptied by the removals stays until the
      next round. */
  function Sweep(n: Node): (r: Node)
    ensures r.name == n.name && (r.File? <==> n.File?)
    decreases n
  {
    match n
    case File(_) => n
    case Dir(name, cs) => Dir(name, SweepAmong(cs))
  }

  function SweepAmong(cs: seq<Node>): seq<Node>
    decreases cs
  {
    if cs == [] then []
    else (if IsEmptyDir(cs[0]) then [] else [Sweep(cs[0])]) + SweepAmong(cs[1..])
  }

  /** A file lies somewhere in `n` (or `n` is one). */
  predicate HasFile(n: Node)
    decreases n
  {
    n.File? || HasFileAmong(n.children)
  }

  predicate HasFileAmong(cs: seq<Node>)
    decreases cs
  {
    cs != [] && (HasFile(cs[0]) || HasFileAmong(cs[1..]))
  }

  /** The intended end state, defined directly: below `n`, keep exactly the
      directories with a file somewhere inside them. */
  function Trim(n: Node): (r: Node)
    ensures r.name == n.name && (r.File? <==> n.File?)
    decreases n
  {
    match n
    case File(_) => n
    case Dir(name, cs) => Dir(name, TrimAmong(cs))
  }

  function TrimAmong(cs: seq<Node>): seq<Node>
    decreases cs
  {
    if cs == [] then []
    else (if HasFile(cs[0]) then [Trim(cs[0])] else []) + TrimAmong(cs[1..])
  }

  /** The paths of the files in `n`, each given as its list of names from
      `n` down, in tree order. */
  function Leaves(n: Node): seq<seq<string>>
    decreases n
  {
    match n
    case File(name) => [[name]]
    case Dir(name, cs) => Prefixed(name, LeavesAmong(cs))
  }

  function LeavesAmong(cs: seq<Node>): seq<seq<string>>
    decreases cs
  {
    if cs == [] then [] else Leaves(cs[0]) + LeavesAmong(cs[1..])
  }

  function Prefixed(name: string, ls: seq<seq<string>>): seq<seq<string>> {
    seq(|ls|, i requires 0 <= i < |ls| => [name] + ls[i])
  }

  /** How a round treats the first node of a list. */
  lemma SweepAmongStep(cs: seq<Node>)
    requires cs != []
    ensures IsEmptyDir(cs[0]) ==> SweepAmong(cs) == SweepAmong(cs[1..])
    ensures !IsEmptyDir(cs[0]) ==>
      SweepAmong(cs) != [] && SweepAmong(cs)[0] == Sweep(cs[0])
      && SweepAmong(cs)[1..] == SweepAmong(cs[1..])
  {
    var rest := SweepAmong(cs[1..]);
    if IsEmptyDir(cs[0]) {
      assert [] + rest == rest;
    } else {
      assert ([Sweep(cs[0])] + rest)[1..] == rest;
    }
  }

  /** A round never removes a file, so it keeps "has a file inside". */
  lemma {:induction false} SweepHasFile(n: Node)
    ensures HasFile(Sweep(n)) == HasFile(n)
    decreases n
  {
    if n.Dir? {
      SweepHasFileAmong(n.children);
    }
  }

  lemma {:induction false} SweepHasFileAmong(cs: seq<Node>)
    ensures HasFileAmong(SweepAmong(cs)) == HasFileAmong(cs)
    decreases cs
  {
    if cs != [] {
      SweepAmongStep(cs);
      SweepHasFile(cs[0]);
      SweepHasFileAmong(cs[1..]);
    }
  }

  /** A round does not change the intended end state. */
  lemma {:induction false} SweepTrim(n: Node)
    ensures Trim(Sweep(n)) == Trim(n)
    decreases n
  {
    if n.Dir? {
      SweepTrimAmong(n.children);
    }
  }

  lemma {:induction false} SweepTrimAmong(cs: seq<Node>)
    ensures TrimAmong(SweepAmong(cs)) == TrimAmong(cs)
    decreases cs
  {
    if cs != [] {
      SweepAmongStep(cs);
      SweepTrimAmong(cs[1..]);
      var rest := TrimAmong(cs[1..]);
      if IsEmptyDir(cs[0]) {
        assert !HasFile(cs[0]);
        assert TrimAmong(cs) == [] + rest == rest;
      } else {
        SweepTrim(cs[0]);
        SweepHasFile(cs[0]);
        var sw := SweepAmong(cs);
        assert TrimAmong(sw) == (if HasFile(sw[0]) then [Trim(sw[0])] else []) + TrimAmong(sw[1..]);
      }
    }
  }

  /** A round removes no directory that is not empty, and removes at least
      one whenever one is empty: the loop terminates. */
  lemma {:induction false} SweepShrinks(n: Node)
    ensures DirsBelow(Sweep(n)) <= DirsBelow(n)
    ensures HasEmptyBelow(n) ==> DirsBelow(Sweep(n)) < DirsBelow(n)
    decreases n
  {
    if n.Dir? {
      SweepShrinksAmong(n.children);
    }
  }

  lemma {:induction false} SweepShrinksAmong(cs: seq<Node>)
    ensures DirsAmong(SweepAmong(cs)) <= DirsAmong(cs)
    ensures HasEmptyAmong(cs) ==> DirsAmong(SweepAmong(cs)) < DirsAmong(cs)
    decreases cs
  {
    if cs != [] {
      SweepAmongStep(cs);
      SweepShrinksAmong(cs[1..]);
      if !IsEmptyDir(cs[0]) {
        SweepShrinks(cs[0]);
      }
    }
  }

  /** A round keeps every file where it was. */
  lemma {:induction false} SweepLeaves(n: Node)
    ensures Leaves(Sweep(n)) == Leaves(n)
    decreases n
  {
    if n.Dir? {
      SweepLeavesAmong(n.children);
    }
  }

  lemma {:induction false} SweepLeavesAmong(cs: seq<Node>)
    ensures LeavesAmong(SweepAmong(cs)) == LeavesAmong(cs)
    decreases cs
  {
    if cs != [] {
      SweepAmongStep(cs);
      SweepLeavesAmong(cs[1..]);
      if IsEmptyDir(cs[0]) {
        assert Leaves(cs[0]) == [];
      } else {
        SweepLeaves(cs[0]);
      }
    }
  }

  /** A non-empty directory with no empty directory below it holds a
      file. */
  lemma {:induction false} NoEmptyHasFile(n: Node)
    requires n.Dir? && n.children != [] && !HasEmptyBelow(n)
    ensures HasFile(n)
    decreases n
  {
    NoEmptyHasFileAmong(n.children);
  }

  lemma {:induction false} NoEmptyHasFileAmong(cs: seq<Node>)
    requires cs != [] && !HasEmptyAmong(cs)
    ensures HasFileAmong(cs)
    decreases cs
  {
    if cs[0].Dir? {
      NoEmptyHasFile(cs[0]);
    }
  }

  /** Once no round would find an empty directory, the tree is the
      intended end state. */
  lemma {:induction false} FixpointIsTrim(n: Node)
    requires !HasEmptyBelow(n)
    ensures Trim(n) == n
    decreases n
  {
    if n.Dir? {
      FixpointIsTrimAmong(n.children);
    }
  }

  lemma {:induction false} FixpointIsTrimAmong(cs: seq<Node>)
    requires !HasEmptyAmong(cs)
    ensures TrimAmong(cs) == cs
    decreases cs
  {
    if cs != [] {
      FixpointIsTrimAmong(cs[1..]);
      FixpointIsTrim(cs[0]);
      if cs[0].Dir? {
        NoEmptyHasFile(cs[0]);
      }
      assert cs == [cs[0]] + cs[1..];
    }
  }

  /** Without any directory below, nothing is empty below. */
  lemma {:induction false} NoDirsNoEmpty(n: Node)
    requires DirsBelow(n) == 0
    ensures !HasEmptyBelow(n)
    decreases n
  {
    if n.Dir? {
      NoDirsNoEmptyAmong(n.children);
    }
  }

  lemma {:induction false} NoDirsNoEmptyAmong(cs: seq<Node>)
    requires DirsAmong(cs) == 0
    ensures !HasEmptyAmong(cs)
    decreases cs
  {
    if cs != [] {
      NoDirsNoEmpty(cs[0]);
      NoDirsNoEmptyAmong(cs[1..]);
    }
  }

  /** `remove_empty_folders` on the tree under `tmp`: when there is no
      directory at all it returns at once; otherwise it sweeps until a
      round finds nothing. The result keeps exactly the directories with a
      file inside, every file stays where it was, and no empty directory is
      left below the root. */
  method RemoveEmptyFolders(root: Node) returns (r: Node)
    requires root.Dir?
    ensures r.Dir? && r.name == root.name
    ensures !HasEmptyBelow(r)
    ensures r == Trim(root)
    ensures Leaves(r) == Leaves(root)
  {
    if DirsBelow(root) == 0 {
      NoDirsNoEmpty(root);
      FixpointIsTrim(root);
      return root;
    }
    r := root;
    while HasEmptyBelow(r)
      invariant r.Dir? && r.name == root.name
      invariant Trim(r) == Trim(root)
      invariant Leaves(r) == Leaves(root)
      decreases DirsBelow(r)
    {
      SweepShrinks(r);
      SweepTrim(r);
      SweepLeaves(r);
      r := Sweep(r);
    }
    FixpointIsTrim(r);
  }
}

=== FILE: files.dfy ===
/** What the passes know about one enumerated file. */
module Files {
  import opened Paths

  newtype byte = b: int | 0 <= b < 256

  /** A file's bytes, or the fact that opening or reading it raises. */
  datatype Content = Bytes(data: seq<byte>) | Unreadable

  /** One result of `tmp_dir.rglob('*')` that `is_file()`. */
  datatype Entry = Entry(path: FilePath, content: Content)

  /** The files under `tmp`, by path, as a pass finds them on disk. */
  type Tree = map<FilePath, Content>
}

=== FILE: options.dfy ===
/** The optional-value type used wherever the modelled code gets `None` back,
    finds no match, or catches an exception. */
module Options {

  datatype Option<+T> = None | Some(value: T) {

    /** The wrapped value, or `default` when there is none. */
    function GetOr(default: T): T {
      match this
      case Some(v) => v
      case None => default
    }
  }
}

=== FILE: ordered_dict.dfy ===
/** Python's `dict`: a finite map that also remembers the order in which its
    keys were first inserted. Assigning to a key already present replaces the
    value but leaves the key where it was. */
module OrderedDict {
  import opened Seqs

  datatype Dict<K(==,!new), V> = Dict(keys: seq<K>, values: map<K, V>) {

    /** The key order lists every key of the map, once. */
    ghost predicate Valid() {
      Distinct(keys) && forall k :: k in values <==> k in keys
    }
  }

  /** `{}` */
  function Empty<K(==,!new), V>(): (d: Dict<K, V>)
    ensures d.Valid() && d.values == map[]
  {
    Dict([], map[])
  }

  /** `d[k] = v` */
  function Put<K(==,!new), V>(d: Dict<K, V>, k: K, v: V): (r: Dict<K, V>)
    requires d.Valid()
    ensures r.Valid()
    ensures r.values == d.values[k := v]
    ensures r.keys == if k in d.values then d.keys else d.keys + [k]
  {
    if k in d.values then Dict(d.keys, d.values[k := v])
    else Dict(d.keys + [k], d.values[k := v])
  }

  /** `for k, v in kvs: d[k] = v`, starting from an empty dictionary. */
  function FromPairs<K(==,!new), V>(kvs: seq<(K, V)>): (d: Dict<K, V>)
    ensures d.Valid()
    decreases |kvs|
  {
    if kvs == [] then Empty()
    else Put(FromPairs(kvs[..|kvs| - 1]), kvs[|kvs| - 1].0, kvs[|kvs| - 1].1)
  }

  /** The position of the last assignment to `k`, or -1 when there is none. */
  function LastIndex<K(==), V>(kvs: seq<(K, V)>, k: K): (i: int)
    ensures -1 <= i < |kvs|
    ensures i >= 0 ==> kvs[i].0 == k
    ensures forall j :: i < j < |kvs| ==> kvs[j].0 != k
    decreases |kvs|
  {
    if kvs == [] then -1
    else if kvs[|kvs| - 1].0 == k then |kvs| - 1
    else LastIndex(kvs[..|kvs| - 1], k)
  }

  /** After a run of assignments the keys stand in order of their first
      assignment. */
  lemma {:induction false} FromPairsKeys<K(!new), V>(kvs: seq<(K, V)>)
    ensures FromPairs(kvs).keys == FirstOccurrences(Firsts(kvs))
    decreases |kvs|
  {
    if kvs != [] {
      var init := kvs[..|kvs| - 1];
      var last := kvs[|kvs| - 1];
      var d0 := FromPairs(init);
      FromPairsKeys(init);
      assert FromPairs(kvs) == Put(d0, last.0, last.1);
      assert Firsts(kvs) == Firsts(init) + [last.0];
      FirstOccurrencesAppend(Firsts(init), last.0);
      assert last.0 in Firsts(init) <==> last.0 in d0.keys;
    }
  }

  /** Exactly the assigned keys are present, and each holds the value of its
      last assignment. */
  lemma {:induction false} FromPairsValue<K(!new), V>(kvs: seq<(K, V)>, k: K)
    ensures k in FromPairs(kvs).values <==> LastIndex(kvs, k) >= 0
    ensures k in FromPairs(kvs).values ==> FromPairs(kvs).values[k] == kvs[LastIndex(kvs, k)].1
    decreases |kvs|
  {
    if kvs != [] {
      var init := kvs[..|kvs| - 1];
      var last := kvs[|kvs| - 1];
      FromPairsValue(init, k);
      assert FromPairs(kvs) == Put(FromPairs(init), last.0, last.1);
    }
  }

  /** `d.items()`: the entries in key order. */
  function Items<K(==,!new), V>(d: Dict<K, V>): (r: seq<(K, V)>)
    requires d.Valid()
    ensures |r| == |d.keys|
    ensures forall i :: 0 <= i < |r| ==> r[i].0 == d.keys[i] && r[i].1 == d.values[d.keys[i]]
  {
    seq(|d.keys|, i requires 0 <= i < |d.keys| => (d.keys[i], d.values[d.keys[i]]))
  }
}

=== FILE: overlays.dfy ===
/** `process_image_overlays` and `process_video_overlays`: every file whose
    path holds a 36-character identifier is classified as a main file, an
    overlay or neither; a main and an overlay with the same identifier form
    a pair; each pair's main is renamed to an `-original` name and the
    overlay is composited onto it into a `-with-overlay` file, after which
    the overlay is unlinked. The compositing itself (PIL or ffmpeg) is the
    parameter `render`. */
module Overlays {
  import opened Options
  import opened Seqs
  import opened Text
  import opened Paths
  import opened Files
  import opened OrderedDict

  /** Which of the two passes is running. */
  datatype Kind = Image | Video

  /** What the classification loop makes of a file. */
  datatype Role = Main | Overlay | Neither

  /** Length of the identifier `[0-9A-Fa-f-]{36}`. */
  const IdLength: nat := 36

  predicate IsIdChar(c: char) {
    '0' <= c <= '9' || 'a' <= c <= 'f' || 'A' <= c <= 'F' || c == '-'
  }

  /** An identifier starts at `i` in `s`. */
  predicate IdAt(s: string, i: nat) {
    i + IdLength <= |s| && forall k :: i <= k < i + IdLength ==> IsIdChar(s[k])
  }

  /** The leftmost start of an identifier at or after `i`, or -1. */
  function FindId(s: string, i: nat): (r: int)
    ensures r == -1 || (i <= r && IdAt(s, r))
    decreases |s| - i
  {
    if i + IdLength > |s| then -1
    else if IdAt(s, i) then i
    else FindId(s, i + 1)
  }

  /** No identifier starts between `i` and the one `FindId` returns. */
  lemma {:induction false} FindIdLeftmost(s: string, i: nat, j: nat)
    requires i <= j
    requires FindId(s, i) == -1 || j < FindId(s, i)
    ensures !IdAt(s, j)
    decreases |s| - i
  {
    if i + IdLength <= |s| && !IdAt(s, i) && i < j {
      FindIdLeftmost(s, i + 1, j);
    }
  }

  /** `re.search(uuid_pattern, str(file)).group()`, or `None` when there is
      no match. */
  function IdOf(p: FilePath): (r: Option<string>)
    ensures r.Some? ==> |r.value| == IdLength
  {
    var s := PathString(p);
    var i := FindId(s, 0);
    if i < 0 then None else Some(s[i..i + IdLength])
  }

  /** The identifier of a path is its leftmost run of 36 identifier
      characters; there is none exactly when no such run exists. */
  lemma IdOfSpec(p: FilePath)
    ensures IdOf(p).None? <==> forall j: nat :: !IdAt(PathString(p), j)
    ensures IdOf(p).Some? ==>
      var s := PathString(p);
      exists i: nat :: IdAt(s, i) && IdOf(p).value == s[i..i + IdLength]
                       && forall j: nat :: j < i ==> !IdAt(s, j)
  {
    var s := PathString(p);
    var i := FindId(s, 0);
    forall j: nat | i == -1 || j < i ensures !IdAt(s, j) {
      FindIdLeftmost(s, 0, j);
    }
  }

  /** Every identifier is 36 identifier characters. */
  lemma IdOfShape(p: FilePath)
    ensures IdOf(p).Some? ==>
      |IdOf(p).value| == IdLength && forall k :: 0 <= k < IdLength ==> IsIdChar(IdOf(p).value[k])
  {
  }

  /** The suffixes the image pass accepts on a main file. */
  const ImageMainSuffixes: set<string> := {".jpg", ".jpeg", ".png"}

  /** The suffixes whose composite is flattened onto white. */
  const FlattenSuffixes: set<string> := {".jpg", ".jpeg"}

  /** The classification `if`/`elif` of each pass, on the file name. */
  function RoleOf(kind: Kind, name: string): (r: Role)
    ensures r == Overlay ==> Contains(name, "-overlay.")
    ensures r == Main ==> Contains(name, "-main.")
    ensures kind == Image && r == Main ==> !Contains(name, "-overlay.")
  {
    var sfx := Lower(Suffix(name));
    match kind
    case Image =>
      if Contains(name, "-overlay.") then Overlay
      else if Contains(name, "-main.") && sfx in ImageMainSuffixes then Main
      else Neither
    case Video =>
      if Contains(name, "-overlay.") && sfx == ".png" then Overlay
      else if Contains(name, "-main.") && sfx == ".mp4" then Main
      else Neither
  }

  /** The assignments `mains[uuid] = file` (or `overlays[uuid] = file`) the
      classification loop performs, in enumeration order. */
  function Tagged(kind: Kind, files: seq<Entry>, role: Role): seq<(string, FilePath)>
    decreases |files|
  {
    if files == [] then []
    else
      var init := Tagged(kind, files[..|files| - 1], role);
      var p := files[|files| - 1].path;
      match IdOf(p)
      case Some(u) => if RoleOf(kind, p.name) == role then init + [(u, p)] else init
      case None => init
  }

  /** Every assignment names a listed file of that role under its own
      identifier. */
  lemma {:induction false} TaggedSound(kind: Kind, files: seq<Entry>, role: Role)
    ensures forall t :: t in Tagged(kind, files, role) ==>
      IdOf(t.1) == Some(t.0) && RoleOf(kind, t.1.name) == role
      && exists e :: e in files && e.path == t.1
    decreases |files|
  {
    if files != [] {
      var init := files[..|files| - 1];
      TaggedSound(kind, init, role);
      assert forall e :: e in init ==> e in files;
    }
  }

  /** Every listed file of that role with an identifier is assigned. */
  lemma {:induction false} TaggedComplete(kind: Kind, files: seq<Entry>, role: Role, e: Entry)
    requires e in files && IdOf(e.path).Some? && RoleOf(kind, e.path.name) == role
    ensures (IdOf(e.path).value, e.path) in Tagged(kind, files, role)
    decreases |files|
  {
    var init := files[..|files| - 1];
    if e != files[|files| - 1] {
      assert files == init + [files[|files| - 1]];
      TaggedComplete(kind, init, role, e);
      TaggedGrows(kind, files, role);
    } else {
      TaggedLast(kind, files, role);
    }
  }

  /** A later file never takes back an earlier assignment. */
  lemma TaggedGrows(kind: Kind, files: seq<Entry>, role: Role)
    requires files != []
    ensures forall t :: t in Tagged(kind, files[..|files| - 1], role) ==> t in Tagged(kind, files, role)
  {
  }

  /** The last file, when it has an identifier and the role, is assigned. */
  lemma TaggedLast(kind: Kind, files: seq<Entry>, role: Role)
    requires files != []
    requires IdOf(files[|files| - 1].path).Some? && RoleOf(kind, files[|files| - 1].path.name) == role
    ensures (IdOf(files[|files| - 1].path).value, files[|files| - 1].path) in Tagged(kind, files, role)
  {
  }

  /** `mains` or `overlays` once the classification loop is done. */
  function Catalogue(kind: Kind, files: seq<Entry>, role: Role): (d: Dict<string, FilePath>)
    ensures d.Valid()
  {
    FromPairs(Tagged(kind, files, role))
  }

  /** An identifier is catalogued exactly when some file of that role
      carries it, and it then names the LAST such file listed (a later
      assignment overwrites an earlier one). */
  lemma CatalogueSpec(kind: Kind, files: seq<Entry>, role: Role, u: string)
    ensures var ts := Tagged(kind, files, role);
            var d := Catalogue(kind, files, role);
            (u in d.values <==> LastIndex(ts, u) >= 0)
            && (u in d.values ==>
                  d.values[u] == ts[LastIndex(ts, u)].1
                  && IdOf(d.values[u]) == Some(u) && RoleOf(kind, d.values[u].name) == role)
  {
    var ts := Tagged(kind, files, role);
    FromPairsValue(ts, u);
    TaggedSound(kind, files, role);
    if LastIndex(ts, u) >= 0 {
      assert ts[LastIndex(ts, u)] in ts;
    }
  }

  /** One entry of `pairs`: `(uuid, main, overlays[uuid])`. */
  datatype Pair = Pair(id: string, main: FilePath, overlay: FilePath)

  /** The list comprehension over `mains.items()` keeping the identifiers
      that also have an overlay. */
  function PairsOf(keys: seq<string>, mains: map<string, FilePath>, overlays: map<string, FilePath>): (r: seq<Pair>)
    requires forall i :: 0 <= i < |keys| ==> keys[i] in mains
    ensures |r| <= |keys|
    decreases |keys|
  {
    if keys == [] then []
    else
      var init := PairsOf(keys[..|keys| - 1], mains, overlays);
      var u := keys[|keys| - 1];
      if u in overlays then init + [Pair(u, mains[u], overlays[u])] else init
  }

  /** The identifiers of a list of pairs, in order. */
  function Ids(ps: seq<Pair>): (r: seq<string>)
    ensures |r| == |ps|
    ensures forall i :: 0 <= i < |ps| ==> r[i] == ps[i].id
  {
    seq(|ps|, i requires 0 <= i < |ps| => ps[i].id)
  }

  /** The main identifiers that also have an overlay, in main order: the
      `if uuid in overlays` of the comprehension, as a filter. */
  function OverlaidKeys(keys: seq<string>, overlays: map<string, FilePath>): seq<string> {
    Filter(keys, u => u in overlays)
  }

  lemma OverlaidKeysAppend(keys: seq<string>, u: string, overlays: map<string, FilePath>)
    ensures OverlaidKeys(keys + [u], overlays)
            == if u in overlays then OverlaidKeys(keys, overlays) + [u] else OverlaidKeys(keys, overlays)
  {
    assert (keys + [u])[..|keys + [u]| - 1] == keys;
  }

  /** The pairs follow the main keys that have an overlay, in order. */
  lemma {:induction false} PairsOfIds(keys: seq<string>, mains: map<string, FilePath>, overlays: map<string, FilePath>)
    requires forall i :: 0 <= i < |keys| ==> keys[i] in mains
    ensures Ids(PairsOf(keys, mains, overlays)) == OverlaidKeys(keys, overlays)
    decreases |keys|
  {
    if keys != [] {
      var init := keys[..|keys| - 1];
      var u := keys[|keys| - 1];
      PairsOfIds(init, mains, overlays);
      assert keys == init + [u];
      OverlaidKeysAppend(init, u, overlays);
      if u in overlays {
        assert Ids(PairsOf(keys, mains, overlays)) == Ids(PairsOf(init, mains, overlays)) + [u];
      }
    }
  }

  /** Each pair holds the catalogued main and overlay of its identifier. */
  predicate FromCatalogue(ps: seq<Pair>, mains: map<string, FilePath>, overlays: map<string, FilePath>) {
    forall i :: 0 <= i < |ps| ==>
      ps[i].id in mains && ps[i].id in overlays
      && ps[i].main == mains[ps[i].id] && ps[i].overlay == overlays[ps[i].id]
  }

  lemma {:induction false} PairsOfFiles(keys: seq<string>, mains: map<string, FilePath>, overlays: map<string, FilePath>)
    requires forall i :: 0 <= i < |keys| ==> keys[i] in mains
    ensures FromCatalogue(PairsOf(keys, mains, overlays), mains, overlays)
    decreases |keys|
  {
    if keys != [] {
      var init := keys[..|keys| - 1];
      var u := keys[|keys| - 1];
      PairsOfFiles(init, mains, overlays);
      var ps0 := PairsOf(init, mains, overlays);
      if u in overlays {
        var ps := PairsOf(keys, mains, overlays);
        assert ps == ps0 + [Pair(u, mains[u], overlays[u])];
        assert forall i :: 0 <= i < |ps0| ==> ps[i] == ps0[i];
      }
    }
  }

  /** The filter keeps exactly the keys with an overlay, and keeps distinct
      keys distinct. */
  lemma OverlaidKeysSpec(keys: seq<string>, overlays: map<string, FilePath>)
    ensures forall u :: u in OverlaidKeys(keys, overlays) <==> u in keys && u in overlays
    ensures Distinct(keys) ==> Distinct(OverlaidKeys(keys, overlays))
  {
    if Distinct(keys) {
      FilterDistinct(keys, u => u in overlays);
    }
  }

  /** A pair is formed for exactly the identifiers with both a main and an
      overlay, once each, in main order, from the catalogued files. */
  lemma PairsOfSpec(keys: seq<string>, mains: map<string, FilePath>, overlays: map<string, FilePath>)
    requires forall i :: 0 <= i < |keys| ==> keys[i] in mains
    ensures var ps := PairsOf(keys, mains, overlays);
            Ids(ps) == OverlaidKeys(keys, overlays)
            && (forall u :: u in Ids(ps) <==> u in keys && u in overlays)
            && (forall i :: 0 <= i < |ps| ==>
                  ps[i].id in mains && ps[i].id in overlays
                  && ps[i].main == mains[ps[i].id] && ps[i].overlay == overlays[ps[i].id])
            && (Distinct(keys) ==> Distinct(Ids(ps)))
  {
    PairsOfIds(keys, mains, overlays);
    PairsOfFiles(keys, mains, overlays);
    OverlaidKeysSpec(keys, overlays);
  }

  /** `pairs` for one pass over the listing `files`. */
  function Pairs(kind: Kind, files: seq<Entry>): (ps: seq<Pair>)
    ensures |ps| <= |Catalogue(kind, files, Main).keys|
  {
    var m := Catalogue(kind, files, Main);
    var o := Catalogue(kind, files, Overlay);
    PairsOf(m.keys, m.values, o.values)
  }

  /** Pairing: an identifier is paired exactly when both a main and an
      overlay carry it; the pairs follow the order in which the mains were
      first catalogued; each pair holds the last main and the last overlay
      listed with its identifier; no identifier is paired twice. */
  lemma PairsSpec(kind: Kind, files: seq<Entry>)
    ensures var ps := Pairs(kind, files);
            var m := Catalogue(kind, files, Main);
            var o := Catalogue(kind, files, Overlay);
            Ids(ps) == OverlaidKeys(m.keys, o.values)
            && Distinct(Ids(ps))
            && (forall u :: u in Ids(ps) <==> u in m.values && u in o.values)
            && (forall i :: 0 <= i < |ps| ==>
                  ps[i].id in m.values && ps[i].main == m.values[ps[i].id]
                  && ps[i].id in o.values && ps[i].overlay == o.values[ps[i].id])
  {
    var m := Catalogue(kind, files, Main);
    var o := Catalogue(kind, files, Overlay);
    PairsOfSpec(m.keys, m.values, o.values);
  }

  /** The files of a pair have the roles and the identifier the pair
      claims. */
  lemma PairFiles(kind: Kind, files: seq<Entry>, i: int)
    requires 0 <= i < |Pairs(kind, files)|
    ensures var pr := Pairs(kind, files)[i];
            IdOf(pr.main) == Some(pr.id) && RoleOf(kind, pr.main.name) == Main
            && IdOf(pr.overlay) == Some(pr.id) && RoleOf(kind, pr.overlay.name) == Overlay
            && pr.main != pr.overlay
  {
    var pr := Pairs(kind, files)[i];
    PairsSpec(kind, files);
    CatalogueSpec(kind, files, Main, pr.id);
    CatalogueSpec(kind, files, Overlay, pr.id);
  }

  /** A main and an overlay listed with the same identifier always end up
      in a pair. */
  lemma PairedWhenBothListed(kind: Kind, files: seq<Entry>, mf: Entry, of: Entry)
    requires mf in files && of in files
    requires IdOf(mf.path).Some? && IdOf(of.path) == IdOf(mf.path)
    requires RoleOf(kind, mf.path.name) == Main && RoleOf(kind, of.path.name) == Overlay
    ensures IdOf(mf.path).value in Ids(Pairs(kind, files))
  {
    var u := IdOf(mf.path).value;
    TaggedComplete(kind, files, Main, mf);
    TaggedComplete(kind, files, Overlay, of);
    var tm := Tagged(kind, files, Main);
    var to := Tagged(kind, files, Overlay);
    var k1 :| 0 <= k1 < |tm| && tm[k1] == (u, mf.path);
    var k2 :| 0 <= k2 < |to| && to[k2] == (u, of.path);
    assert LastIndex(tm, u) >= 0;
    assert LastIndex(to, u) >= 0;
    CatalogueSpec(kind, files, Main, u);
    CatalogueSpec(kind, files, Overlay, u);
    PairsSpec(kind, files);
  }

  /** Different pairs name different mains and different overlays. */
  lemma PairsDistinctFiles(kind: Kind, files: seq<Entry>, i: int, j: int)
    requires 0 <= i < j < |Pairs(kind, files)|
    ensures Pairs(kind, files)[i].main != Pairs(kind, files)[j].main
    ensures Pairs(kind, files)[i].overlay != Pairs(kind, files)[j].overlay
  {
    PairsSpec(kind, files);
    PairFiles(kind, files, i);
    PairFiles(kind, files, j);
    assert Ids(Pairs(kind, files))[i] != Ids(Pairs(kind, files))[j];
  }

  /** `main_path.name.replace('-main', '')` */
  function BaseName(main: FilePath): string {
    Replace(main.name, "-main", "")
  }

  /** The suffix of the outputs: the main's own for images, `.mp4` for
      videos. */
  function OutputSuffix(kind: Kind, main: FilePath): string {
    match kind
    case Image => Suffix(main.name)
    case Video => ".mp4"
  }

  /** `base_path.with_name(base_path.stem + tag + suffix)` */
  function OutputPath(kind: Kind, main: FilePath, tag: string): (r: FilePath)
    ensures r.parent == main.parent
  {
    WithName(main, Stem(BaseName(main)) + tag + OutputSuffix(kind, main))
  }

  function OriginalPath(kind: Kind, main: FilePath): FilePath {
    OutputPath(kind, main, "-original")
  }

  function WithOverlayPath(kind: Kind, main: FilePath): FilePath {
    OutputPath(kind, main, "-with-overlay")
  }

  /** `with_overlay_path.suffix.lower() in ['.jpg', '.jpeg']`: the image
      pass pastes the composite onto a white background and saves JPEG. */
  predicate Flatten(p: FilePath) {
    Lower(Suffix(p.name)) in FlattenSuffixes
  }

  /** A suffix whose lower-case form is known to have no dash has none. */
  lemma NoDash(x: string)
    requires forall k :: 0 <= k < |Lower(x)| ==> Lower(x)[k] != '-'
    ensures forall k :: 0 <= k < |x| ==> x[k] != '-'
  {
    forall k | 0 <= k < |x| ensures x[k] != '-' {
      assert Lower(x)[k] == LowerChar(x[k]);
    }
  }

  /** The lower-case suffixes a main file of each pass may carry. */
  predicate MainSuffixOk(kind: Kind, lower: string) {
    match kind
    case Image => lower in ImageMainSuffixes
    case Video => lower == ".mp4"
  }

  lemma RoleMain(kind: Kind, name: string)
    requires RoleOf(kind, name) == Main
    ensures MainSuffixOk(kind, Lower(Suffix(name)))
  {
  }

  /** An accepted suffix has four or five characters and no dash. */
  lemma MainSuffixOkShape(kind: Kind, s: string)
    requires MainSuffixOk(kind, Lower(s))
    ensures 4 <= |s| <= 5 && forall k :: 0 <= k < |s| ==> s[k] != '-'
  {
    var l := Lower(s);
    assert |l| == |s|;
    assert forall k :: 0 <= k < |l| ==> l[k] != '-';
    NoDash(s);
  }

  /** A main file's suffix is a real suffix of four or five characters
      with no dash, and the output suffix has the same length. */
  lemma MainSuffix(kind: Kind, main: FilePath)
    requires RoleOf(kind, main.name) == Main
    ensures var s := Suffix(main.name);
            IsSuffixShape(s) && 4 <= |s| <= 5 && |OutputSuffix(kind, main)| == |s|
            && forall k :: 0 <= k < |s| ==> s[k] != '-'
  {
    var s := Suffix(main.name);
    RoleMain(kind, main.name);
    MainSuffixOkShape(kind, s);
  }

  /** A well-formed suffix on its own is a hidden name without a suffix. */
  lemma SuffixAlone(s: string)
    requires IsSuffixShape(s)
    ensures Suffix(s) == [] && Stem(s) == s
  {
    assert RFind(s, '.') == 0 by {
      assert s[0] == '.';
      forall i | 0 < i < |s| ensures s[i] != '.' {}
    }
  }

  /** `main_path.name` with the `-main` removed keeps its suffix: the
      replacement happens in the stem. */
  lemma BaseNameSplit(kind: Kind, main: FilePath)
    requires RoleOf(kind, main.name) == Main
    ensures BaseName(main) == Replace(Stem(main.name), "-main", "") + Suffix(main.name)
  {
    var s := Suffix(main.name);
    var pat := "-main";
    MainSuffix(kind, main);
    assert pat[0] == '-' && forall j :: 0 <= j < |pat| ==> pat[j] != '.';
    assert Stem(main.name) + s == main.name;
    ReplaceKeepsTail(Stem(main.name), s, pat, "");
  }

  /** An output name against the main name: the stem with every `-main`
      removed, then the tag, then the output suffix; so `c` copies of `-main`
      go and the tag comes in. When the stem was nothing but copies of
      `-main`, the base name is the bare suffix, which `pathlib` reads as a
      stem, so the suffix ends up in the output twice. */
  lemma OutputLength(kind: Kind, main: FilePath, tag: string)
    requires RoleOf(kind, main.name) == Main
    ensures var r := Replace(Stem(main.name), "-main", "");
            (r != [] ==> OutputPath(kind, main, tag).name == r + tag + OutputSuffix(kind, main))
            && (r == [] ==> OutputPath(kind, main, tag).name == Suffix(main.name) + tag + OutputSuffix(kind, main))
    ensures var n := |OutputPath(kind, main, tag).name|;
            var c := ReplaceCount(Stem(main.name), "-main");
            var r := Replace(Stem(main.name), "-main", "");
            (r != [] ==> n + c * 5 == |main.name| + |tag|)
            && (r == [] ==> n + c * 5 == |main.name| + |tag| + |OutputSuffix(kind, main)|)
  {
    var s := Suffix(main.name);
    var stem := Stem(main.name);
    var r := Replace(stem, "-main", "");
    MainSuffix(kind, main);
    BaseNameSplit(kind, main);
    RemoveAllLength(stem, "-main");
    if r != [] {
      SuffixOfAppend(r, s);
    } else {
      assert BaseName(main) == s;
      SuffixAlone(s);
    }
  }

  lemma NotFiveApart(n: int, m: int, c: int, t: int, o: int)
    requires t == 9 || t == 13
    requires 4 <= o <= 5
    requires n + c * 5 == m + t || n + c * 5 == m + t + o
    ensures n != m
  {
  }

  /** No output takes the main file's own name. */
  lemma OutputNotMain(kind: Kind, main: FilePath, tag: string)
    requires RoleOf(kind, main.name) == Main
    requires tag == "-original" || tag == "-with-overlay"
    ensures OutputPath(kind, main, tag) != main
  {
    MainSuffix(kind, main);
    OutputLength(kind, main, tag);
    NotFiveApart(|OutputPath(kind, main, tag).name|, |main.name|,
                 ReplaceCount(Stem(main.name), "-main"), |tag|, |OutputSuffix(kind, main)|);
  }

  /** Names that differ at the same position differ. */
  lemma InfixDiffers(b: string, t: string, u: string, o: string)
    requires |t| > 1 && |u| > 1 && t[1] != u[1]
    ensures b + t + o != b + u + o
  {
    assert (b + t + o)[|b| + 1] == t[1];
    assert (b + u + o)[|b| + 1] == u[1];
  }

  /** The original and the composite get different names. */
  lemma OutputsDiffer(kind: Kind, main: FilePath)
    ensures OriginalPath(kind, main) != WithOverlayPath(kind, main)
  {
    var t := "-original";
    var u := "-with-overlay";
    assert t[1] == 'o' && u[1] == 'w';
    InfixDiffers(Stem(BaseName(main)), t, u, OutputSuffix(kind, main));
  }

  /** The two outputs are distinct from each other and from the main file,
      and sit in the main file's directory: renaming the main never
      overwrites it in place, and the composite never lands on the
      original. */
  lemma OutputsDistinct(kind: Kind, main: FilePath)
    requires RoleOf(kind, main.name) == Main
    ensures OriginalPath(kind, main) != main
    ensures WithOverlayPath(kind, main) != main
    ensures OriginalPath(kind, main) != WithOverlayPath(kind, main)
    ensures OriginalPath(kind, main).parent == main.parent
    ensures WithOverlayPath(kind, main).parent == main.parent
  {
    OutputNotMain(kind, main, "-original");
    OutputNotMain(kind, main, "-with-overlay");
    OutputsDiffer(kind, main);
  }

  /** Removing `-main` from `X-main.ext` gives `X.ext`. */
  lemma CanonicalBase(x: string, sfx: string)
    requires !Contains(x, "-main")
    requires IsSuffixShape(sfx) && forall k :: 0 <= k < |sfx| ==> sfx[k] != '-'
    ensures Replace(x + "-main" + sfx, "-main", "") == x + sfx
  {
    ReplaceOnce(x, "-main", sfx, "");
    ConcatEmpty(x, sfx);
  }

  /** Naming on the usual shape `X-main.ext`: the outputs are
      `X-original.ext` and `X-with-overlay.ext` (`.mp4` for videos). */
  lemma CanonicalNames(kind: Kind, parent: string, x: string, sfx: string)
    requires |x| > 0 && !Contains(x, "-main")
    requires IsSuffixShape(sfx) && forall k :: 0 <= k < |sfx| ==> sfx[k] != '-'
    ensures var main := FilePath(parent, x + "-main" + sfx);
            var out := match kind case Image => sfx case Video => ".mp4";
            BaseName(main) == x + sfx
            && OriginalPath(kind, main) == FilePath(parent, x + "-original" + out)
            && WithOverlayPath(kind, main) == FilePath(parent, x + "-with-overlay" + out)
  {
    CanonicalBase(x, sfx);
    SuffixOfAppend(x + "-main", sfx);
    SuffixOfAppend(x, sfx);
  }

  /** The image pass flattens onto white exactly when the main file is a
      JPEG (`.jpg` or `.jpeg` in any case); a PNG main keeps its alpha. */
  lemma FlattenIffJpeg(main: FilePath)
    requires RoleOf(Image, main.name) == Main
    ensures Flatten(WithOverlayPath(Image, main)) <==> Lower(Suffix(main.name)) in FlattenSuffixes
  {
    var s := Suffix(main.name);
    MainSuffix(Image, main);
    SuffixOfAppend(Stem(BaseName(main)) + "-with-overlay", s);
  }

  /** What the compositor is given: the renamed main's content, the
      overlay's content, and whether to flatten onto white (always false
      for videos). */
  datatype Job = Job(kind: Kind, main: Content, overlay: Content, flatten: bool)

  /** One iteration of the pair loop. A failing `rename` (the main is gone)
      changes nothing; a failure after it (overlay gone, the compositor or
      ffmpeg failing: `render` returns `None`) leaves the main renamed and
      the overlay in place; on success the composite is written and the
      overlay unlinked. */
  function ApplyPair(kind: Kind, fs: Tree, pr: Pair, render: Job -> Option<seq<byte>>): (r: Tree)
    ensures forall q :: q in r ==> q in fs || IsOutput(kind, pr, q)
  {
    if pr.main !in fs then fs
    else
      var orig := OriginalPath(kind, pr.main);
      var wo := WithOverlayPath(kind, pr.main);
      var fs1 := (fs - {pr.main})[orig := fs[pr.main]];
      if pr.overlay !in fs1 then fs1
      else
        match render(Job(kind, fs1[orig], fs1[pr.overlay], kind == Image && Flatten(wo)))
        case None => fs1
        case Some(b) => fs1[wo := Bytes(b)] - {pr.overlay}
  }

  /** `q` is one of the two paths a pair writes. */
  predicate IsOutput(kind: Kind, pr: Pair, q: FilePath) {
    q == OriginalPath(kind, pr.main) || q == WithOverlayPath(kind, pr.main)
  }

  /** `q` is an output of some pair of `ps`. */
  predicate IsOutputOf(kind: Kind, ps: seq<Pair>, q: FilePath)
    decreases |ps|
  {
    ps != [] && (IsOutput(kind, ps[0], q) || IsOutputOf(kind, ps[1..], q))
  }

  /** A pair touches only its main, its overlay and its two outputs. */
  lemma ApplyPairFrame(kind: Kind, fs: Tree, pr: Pair, render: Job -> Option<seq<byte>>, q: FilePath)
    requires q != pr.main && q != pr.overlay
    requires q != OriginalPath(kind, pr.main) && q != WithOverlayPath(kind, pr.main)
    ensures q in ApplyPair(kind, fs, pr, render) <==> q in fs
    ensures q in fs ==> ApplyPair(kind, fs, pr, render)[q] == fs[q]
  {
  }

  /** What the compositor reads as the overlay once the main has been
      renamed: the main's own content when the overlay sat at the original
      name and the rename replaced it. */
  function OverlayRead(kind: Kind, fs: Tree, pr: Pair): Content
    requires pr.main in fs && pr.overlay in fs
  {
    if pr.overlay == OriginalPath(kind, pr.main) then fs[pr.main] else fs[pr.overlay]
  }

  /** The job the compositor is given for a pair whose files exist. */
  function JobOf(kind: Kind, fs: Tree, pr: Pair): Job
    requires pr.main in fs && pr.overlay in fs
  {
    Job(kind, fs[pr.main], OverlayRead(kind, fs, pr), kind == Image && Flatten(WithOverlayPath(kind, pr.main)))
  }

  /** The effect of a pair whose outputs differ from its main and from each
      other. The overlay may sit at either output path: a rename onto it
      replaces it, and a composite written onto it is unlinked with it. */
  lemma ApplyPairMoves(kind: Kind, fs: Tree, pr: Pair, render: Job -> Option<seq<byte>>)
    requires pr.main in fs && pr.overlay in fs && pr.overlay != pr.main
    requires OriginalPath(kind, pr.main) != pr.main && WithOverlayPath(kind, pr.main) != pr.main
    requires OriginalPath(kind, pr.main) != WithOverlayPath(kind, pr.main)
    ensures var fs' := ApplyPair(kind, fs, pr, render);
            var orig := OriginalPath(kind, pr.main);
            var wo := WithOverlayPath(kind, pr.main);
            var out := render(JobOf(kind, fs, pr));
            pr.main !in fs'
            && (pr.overlay != orig ==> orig in fs' && fs'[orig] == fs[pr.main])
            && (out.Some? ==> pr.overlay !in fs'
                              && (wo in fs' <==> wo != pr.overlay)
                              && (wo in fs' ==> fs'[wo] == Bytes(out.value)))
            && (out.None? ==> pr.overlay in fs' && fs'[pr.overlay] == OverlayRead(kind, fs, pr)
                              && orig in fs' && fs'[orig] == fs[pr.main])
  {
    var orig := OriginalPath(kind, pr.main);
    var wo := WithOverlayPath(kind, pr.main);
    MoveThenWrite(fs, pr.main, pr.overlay, orig, wo, render(JobOf(kind, fs, pr)));
  }

  /** The map updates of one iteration: move `main` to `orig`, then, when
      the compositor produced `out`, write it at `wo` and delete `ov`. */
  lemma MoveThenWrite(fs: Tree, main: FilePath, ov: FilePath, orig: FilePath, wo: FilePath, out: Option<seq<byte>>)
    requires main in fs && ov in fs && ov != main && orig != main && wo != main && orig != wo
    ensures var fs1 := (fs - {main})[orig := fs[main]];
            main !in fs1 && orig in fs1 && fs1[orig] == fs[main]
            && ov in fs1 && fs1[ov] == (if ov == orig then fs[main] else fs[ov])
            && (out.Some? ==> var fs2 := fs1[wo := Bytes(out.value)] - {ov};
                              main !in fs2 && ov !in fs2
                              && (wo in fs2 <==> wo != ov) && (wo in fs2 ==> fs2[wo] == Bytes(out.value))
                              && (orig in fs2 <==> orig != ov) && (orig in fs2 ==> fs2[orig] == fs[main]))
  {
  }

  /** A pair whose main exists always ends with the main renamed to the
      original name, keeping its content, unless the overlay itself sat at
      that name; the overlay goes exactly when the compositor succeeds, and
      the composite then stays unless it was written onto the overlay's own
      path, which is unlinked right after. */
  lemma ApplyPairEffect(kind: Kind, fs: Tree, pr: Pair, render: Job -> Option<seq<byte>>)
    requires RoleOf(kind, pr.main.name) == Main
    requires pr.main in fs && pr.overlay in fs && pr.overlay != pr.main
    ensures var fs' := ApplyPair(kind, fs, pr, render);
            var orig := OriginalPath(kind, pr.main);
            var wo := WithOverlayPath(kind, pr.main);
            var out := render(JobOf(kind, fs, pr));
            pr.main !in fs'
            && (pr.overlay != orig ==> orig in fs' && fs'[orig] == fs[pr.main])
            && (out.Some? ==> pr.overlay !in fs'
                              && (wo in fs' <==> wo != pr.overlay)
                              && (wo in fs' ==> fs'[wo] == Bytes(out.value)))
            && (out.None? ==> pr.overlay in fs' && fs'[pr.overlay] == OverlayRead(kind, fs, pr))
  {
    OutputsDistinct(kind, pr.main);
    ApplyPairMoves(kind, fs, pr, render);
  }

  /** A composite left by an earlier run of the image pass is itself taken
      for an overlay: its name holds `-overlay.`. Since `tmp` is not cleared
      between runs, it can become the overlay of its own main, and the new
      composite is then written onto it and unlinked. */
  lemma LeftoverCompositeIsOverlay(main: FilePath)
    requires RoleOf(Image, main.name) == Main
    ensures RoleOf(Image, WithOverlayPath(Image, main).name) == Overlay
  {
    var s := Suffix(main.name);
    MainSuffix(Image, main);
    var head := Stem(BaseName(main)) + "-with";
    var pat := "-overlay.";
    var name := WithOverlayPath(Image, main).name;
    assert name == Stem(BaseName(main)) + "-with-overlay" + s;
    TagBeforeSuffix(Stem(BaseName(main)), s);
    ContainsInside(head, pat, s[1..]);
    OverlayName(name);
  }

  /** `-with-overlay` followed by a suffix holds `-overlay.`. */
  lemma TagBeforeSuffix(b: string, s: string)
    requires s != [] && s[0] == '.'
    ensures b + "-with-overlay" + s == (b + "-with") + "-overlay." + s[1..]
  {
    var t := "-with-overlay";
    var w := "-with";
    var o := "-overlay.";
    assert t == w + o[..8];
    assert s == [o[8]] + s[1..];
  }

  /** A name holding `-overlay.` is an overlay for the image pass. */
  lemma OverlayName(name: string)
    requires Contains(name, "-overlay.")
    ensures RoleOf(Image, name) == Overlay
  {
  }

  /** The whole loop over `pairs`. */
  function ApplyPairs(kind: Kind, fs: Tree, ps: seq<Pair>, render: Job -> Option<seq<byte>>): (r: Tree)
    ensures forall q :: q in r ==> q in fs || IsOutputOf(kind, ps, q)
    decreases |ps|
  {
    if ps == [] then fs
    else ApplyPairs(kind, ApplyPair(kind, fs, ps[0], render), ps[1..], render)
  }

  /** A path that is no pair's main, overlay or output is left alone by the
      whole loop. */
  lemma {:induction false} ApplyPairsFrame(kind: Kind, fs: Tree, ps: seq<Pair>, render: Job -> Option<seq<byte>>, q: FilePath)
    requires forall i :: 0 <= i < |ps| ==>
      q != ps[i].main && q != ps[i].overlay
      && q != OriginalPath(kind, ps[i].main) && q != WithOverlayPath(kind, ps[i].main)
    ensures q in ApplyPairs(kind, fs, ps, render) <==> q in fs
    ensures q in fs ==> ApplyPairs(kind, fs, ps, render)[q] == fs[q]
    decreases |ps|
  {
    if ps != [] {
      ApplyPairFrame(kind, fs, ps[0], render, q);
      ApplyPairsFrame(kind, ApplyPair(kind, fs, ps[0], render), ps[1..], render, q);
    }
  }

  /** `process_image_overlays` or `process_video_overlays` on a tree: the
      listing is the tree's files in `rglob` order. */
  function ProcessOverlays(kind: Kind, fs: Tree, files: seq<Entry>, render: Job -> Option<seq<byte>>): (r: Tree)
    ensures forall q :: q in r ==> q in fs || IsOutputOf(kind, Pairs(kind, files), q)
  {
    ApplyPairs(kind, fs, Pairs(kind, files), render)
  }
}

=== FILE: paths.dfy ===
/** Paths as `pathlib` and `os.path` (POSIX flavour) take them apart. */
module Paths {
  import opened Text

  /** A file's location: the text of its parent directory and its final
      component (`path.parent`, `path.name`). */
  datatype FilePath = FilePath(parent: string, name: string)

  /** `str(path)`: the parent and the name joined by the separator. */
  function PathString(p: FilePath): string {
    p.parent + "/" + p.name
  }

  /** `path.with_name(name)`: the same directory, another final component. */
  function WithName(p: FilePath, name: string): (q: FilePath)
    ensures q.parent == p.parent && q.name == name
  {
    FilePath(p.parent, name)
  }

  /** A non-empty `Path.suffix`: one leading dot, at least one more
      character, and no other dot. */
  predicate IsSuffixShape(x: string) {
    |x| >= 2 && x[0] == '.' && forall i :: 1 <= i < |x| ==> x[i] != '.'
  }

  /** `Path.suffix` exists when the last dot is neither the first nor the
      last character of the name. */
  predicate HasSuffix(name: string) {
    var i := RFind(name, '.');
    0 < i < |name| - 1
  }

  /** `Path.suffix`. */
  function Suffix(name: string): (r: string)
    ensures r == [] <==> !HasSuffix(name)
    ensures r != [] ==> IsSuffixShape(r) && EndsWith(name, r) && |r| < |name|
  {
    if HasSuffix(name) then name[RFind(name, '.')..] else []
  }

  /** `Path.stem`: what remains of the name once the suffix is cut off. */
  function Stem(name: string): (r: string)
    ensures r + Suffix(name) == name
    ensures Suffix(name) != [] ==> |r| > 0
  {
    if HasSuffix(name) then name[..RFind(name, '.')] else name
  }

  /** A name built as a non-empty text followed by a well-formed suffix has
      exactly that suffix and that stem. */
  lemma SuffixOfAppend(x: string, sfx: string)
    requires |x| > 0 && IsSuffixShape(sfx)
    ensures Suffix(x + sfx) == sfx
    ensures Stem(x + sfx) == x
  {
    var name := x + sfx;
    assert name[|x|] == '.';
    assert forall i :: |x| < i < |name| ==> name[i] == sfx[i - |x|];
    assert RFind(name, '.') == |x|;
  }

  /** A non-empty `splitext` extension: a dot, then no dot and no separator. */
  predicate IsExtShape(e: string) {
    |e| > 0 && e[0] == '.' && forall i :: 1 <= i < |e| ==> e[i] != '.' && e[i] != '/'
  }

  /** The text contains a character other than a dot. */
  predicate HasNonDot(s: string) {
    exists i :: 0 <= i < |s| && s[i] != '.'
  }

  /** `os.path.splitext` with `/` as the only separator: the extension runs
      from the last dot of the final component, unless everything before
      that dot in the component is dots (a hidden file's leading dots). */
  function SplitExt(p: string): (r: (string, string))
    ensures r.0 + r.1 == p
  {
    var sep := RFind(p, '/');
    var dot := RFind(p, '.');
    if dot > sep && HasNonDot(p[sep + 1..dot]) then (p[..dot], p[dot..]) else (p, [])
  }

  /** A non-empty extension is a dot followed by characters that are
      neither dots nor separators. */
  lemma SplitExtShape(p: string)
    ensures SplitExt(p).1 != [] ==> IsExtShape(SplitExt(p).1)
  {
    var sep := RFind(p, '/');
    var dot := RFind(p, '.');
    if dot > sep && HasNonDot(p[sep + 1..dot]) {
      var ext := p[dot..];
      forall i | 1 <= i < |ext| ensures ext[i] != '.' && ext[i] != '/' {
        assert ext[i] == p[dot + i];
        assert dot < dot + i && sep < dot + i;
      }
    }
  }

  /** When `splitext` finds an extension, the base's final component holds a
      character other than a dot. */
  lemma SplitExtBase(p: string)
    ensures SplitExt(p).1 != [] ==> HasNonDot(SplitExt(p).0[RFind(p, '/') + 1..])
  {
    var sep := RFind(p, '/');
    var dot := RFind(p, '.');
    if dot > sep && HasNonDot(p[sep + 1..dot]) {
      var mid := p[sep + 1..dot];
      var k :| 0 <= k < |mid| && mid[k] != '.';
      var base := p[..dot];
      assert base[sep + 1..][k] == mid[k];
    }
  }

  /** When `splitext` finds no extension, no character other than a dot
      comes before a dot in the final component. */
  lemma SplitExtNone(p: string)
    ensures SplitExt(p).1 == [] ==>
      forall i, j :: RFind(p, '/') < i < j < |p| && p[j] == '.' ==> p[i] == '.'
  {
    var sep := RFind(p, '/');
    var dot := RFind(p, '.');
    if SplitExt(p).1 == [] {
      forall i, j | sep < i < j < |p| && p[j] == '.' ensures p[i] == '.' {
        assert sep < i < dot;
        var mid := p[sep + 1..dot];
        assert !HasNonDot(mid);
        assert mid[i - sep - 1] == p[i];
      }
    }
  }
}

=== FILE: pattern.dfy ===
/** `PatternAnalyzer.extract_pattern`: split off the extension as
    `os.path.splitext` does, then rewrite the base with four `re.sub`
    passes in a fixed order (dates, UUIDs, base64-like runs, digit runs),
    and put the extension back. Each pass is a leftmost, non-overlapping,
    greedy scan for one fixed pattern. */
module Pattern {
  import opened Text
  import opened Paths

  /** `\d`, taken as the ASCII digits. */
  predicate IsDigit(c: char) {
    '0' <= c <= '9'
  }

  /** `[0-9A-F]` under `re.IGNORECASE`. */
  predicate IsHex(c: char) {
    IsDigit(c) || 'a' <= c <= 'f' || 'A' <= c <= 'F'
  }

  /** `[A-Za-z0-9+/=_-]` */
  predicate IsB64Char(c: char) {
    'A' <= c <= 'Z' || 'a' <= c <= 'z' || IsDigit(c)
    || c == '+' || c == '/' || c == '=' || c == '_' || c == '-'
  }

  /** The length of the run of `[A-Za-z0-9+/=_-]` that starts `s`. */
  function LeadRun(s: string): (r: nat)
    ensures r <= |s|
  {
    if s == [] || !IsB64Char(s[0]) then 0 else 1 + LeadRun(s[1..])
  }

  /** The length of the run of digits that starts `s`. */
  function DigitRun(s: string): (r: nat)
    ensures r <= |s|
  {
    if s == [] || !IsDigit(s[0]) then 0 else 1 + DigitRun(s[1..])
  }

  /** `\d{4}-\d{2}-\d{2}` matches at the start of `s`. */
  predicate DateAt(s: string) {
    |s| >= 10
    && IsDigit(s[0]) && IsDigit(s[1]) && IsDigit(s[2]) && IsDigit(s[3]) && s[4] == '-'
    && IsDigit(s[5]) && IsDigit(s[6]) && s[7] == '-' && IsDigit(s[8]) && IsDigit(s[9])
  }

  /** The dashes of an 8-4-4-4-12 UUID. */
  predicate IsUuidDash(i: int) {
    i == 8 || i == 13 || i == 18 || i == 23
  }

  /** `u` is a UUID in 8-4-4-4-12 form, hex digits in either case. */
  predicate IsUuid(u: string) {
    |u| == 36 && forall i :: 0 <= i < 36 ==> if IsUuidDash(i) then u[i] == '-' else IsHex(u[i])
  }

  /** The four passes, in the order they run. */
  datatype Rule = Date | Uuid | Base64 | Digits

  /** The length of the match of `rule` at the start of `s`, 0 when there
      is none (no rule matches the empty string). */
  function MatchLen(rule: Rule, s: string): (r: nat)
    ensures r <= |s|
  {
    match rule
    case Date => if DateAt(s) then 10 else 0
    case Uuid => if |s| >= 36 && IsUuid(s[..36]) then 36 else 0
    case Base64 => if LeadRun(s) >= 20 then LeadRun(s) else 0
    case Digits => DigitRun(s)
  }

  /** The replacement text of each pass. */
  function Token(rule: Rule): string {
    match rule
    case Date => "<date>"
    case Uuid => "<uuid>"
    case Base64 => "<base64>"
    case Digits => "<num>"
  }

  /** `re.sub(pattern, token, s)`: scanning from the left, a match is
      replaced and the scan resumes after it; elsewhere a character is
      copied. */
  function Sub(rule: Rule, s: string): (r: string)
    ensures r == [] <==> s == []
    decreases |s|
  {
    if s == [] then []
    else
      var n := MatchLen(rule, s);
      if n > 0 then Token(rule) + Sub(rule, s[n..]) else [s[0]] + Sub(rule, s[1..])
  }

  /** The four passes over the base. */
  function RewriteBase(base: string): (r: string)
    ensures r == [] <==> base == []
  {
    Sub(Digits, Sub(Base64, Sub(Uuid, Sub(Date, base))))
  }

  /** `extract_pattern(filename)` */
  function ExtractPattern(filename: string): (r: string)
    ensures r == [] <==> filename == []
  {
    var (base, ext) := SplitExt(filename);
    RewriteBase(base) + ext
  }

  // ---------------------------------------------------------------------
  // Runs

  lemma {:induction false} LeadRunAtLeast(s: string, n: nat)
    requires n <= |s| && forall i :: 0 <= i < n ==> IsB64Char(s[i])
    ensures LeadRun(s) >= n
  {
    if n > 0 {
      LeadRunAtLeast(s[1..], n - 1);
    }
  }

  lemma {:induction false} LeadRunBelow(s: string, j: nat)
    requires j < |s| && !IsB64Char(s[j])
    ensures LeadRun(s) <= j
  {
    if j > 0 && IsB64Char(s[0]) {
      LeadRunBelow(s[1..], j - 1);
    }
  }

  lemma {:induction false} LeadRunConcat(r: string, x: string)
    requires forall i :: 0 <= i < |r| ==> IsB64Char(r[i])
    requires x == [] || !IsB64Char(x[0])
    ensures LeadRun(r + x) == |r|
  {
    if r != [] {
      assert (r + x)[1..] == r[1..] + x;
      LeadRunConcat(r[1..], x);
    } else {
      assert r + x == x;
    }
  }

  lemma AngleOutsideClass()
    ensures !IsB64Char('<') && !IsB64Char('>')
  {}

  /** A place where no pattern can start: not a digit, and too short a run
      for a base64 run or a UUID. */
  lemma Inert(rule: Rule, s: string)
    requires s != [] && !IsDigit(s[0]) && LeadRun(s) < 20
    ensures MatchLen(rule, s) == 0
  {
    if rule == Uuid && |s| >= 36 && IsUuid(s[..36]) {
      LeadRunAtLeast(s, 36);
      assert false;
    }
  }

  /** Every rule's match starts with a character of the base64 class. */
  lemma MatchStartsInClass(rule: Rule, s: string)
    requires MatchLen(rule, s) > 0
    ensures IsB64Char(s[0])
  {
    if rule == Uuid {
      assert IsHex(s[..36][0]) || s[..36][0] == '-';
    }
  }

  // ---------------------------------------------------------------------
  // Passing text through unchanged

  /** A scan over `t + y` that finds no match inside `t` copies `t`. */
  lemma {:induction false} PassThrough(rule: Rule, t: string, y: string)
    requires forall i :: 0 <= i < |t| ==> MatchLen(rule, t[i..] + y) == 0
    ensures Sub(rule, t + y) == t + Sub(rule, y)
    decreases |t|
  {
    if t == [] {
      assert t + y == y;
    } else {
      var s := t + y;
      assert t[0..] == t;
      assert MatchLen(rule, s) == 0;
      SubStep(rule, s);
      assert s[0] == t[0] && s[1..] == t[1..] + y;
      forall i | 0 <= i < |t| - 1 ensures MatchLen(rule, t[1..][i..] + y) == 0 {
        assert t[1..][i..] == t[i + 1..];
      }
      PassThrough(rule, t[1..], y);
      assert [t[0]] + t[1..] == t;
    }
  }

  /** A replacement token with no digit and a closing `>` is never matched
      by any pass, whatever follows it. */
  lemma TokenInert(rule: Rule, t: string, y: string)
    requires t != [] && |t| <= 20 && t[|t| - 1] == '>'
    requires forall k :: 0 <= k < |t| ==> !IsDigit(t[k])
    ensures Sub(rule, t + y) == t + Sub(rule, y)
  {
    forall i | 0 <= i < |t| ensures MatchLen(rule, t[i..] + y) == 0 {
      var s := t[i..] + y;
      assert s[|t| - 1 - i] == '>';
      LeadRunBelow(s, |t| - 1 - i);
      Inert(rule, s);
    }
    PassThrough(rule, t, y);
  }

  /** A text where no pass can match anywhere. */
  predicate Clean(rule: Rule, s: string)
    decreases |s|
  {
    s == [] || (MatchLen(rule, s) == 0 && Clean(rule, s[1..]))
  }

  lemma {:induction false} CleanUnchanged(rule: Rule, s: string)
    requires Clean(rule, s)
    ensures Sub(rule, s) == s
    decreases |s|
  {
    if s != [] {
      CleanUnchanged(rule, s[1..]);
      assert [s[0]] + s[1..] == s;
    }
  }

  /** No digit anywhere in `s`. */
  predicate NoDigit(s: string) {
    forall i :: 0 <= i < |s| ==> !IsDigit(s[i])
  }

  /** No run of twenty or more base64-class characters anywhere in `s`. */
  predicate ShortRuns(s: string)
    decreases |s|
  {
    s == [] || (LeadRun(s) < 20 && ShortRuns(s[1..]))
  }

  /** Without digits and long runs, no pass matches anywhere. */
  lemma {:induction false} QuietIsClean(rule: Rule, s: string)
    requires NoDigit(s) && ShortRuns(s)
    ensures Clean(rule, s)
    decreases |s|
  {
    if s != [] {
      Inert(rule, s);
      QuietIsClean(rule, s[1..]);
    }
  }

  // ---------------------------------------------------------------------
  // What the passes leave behind

  /** A token followed by a text without long runs has none either. */
  lemma {:induction false} TokenShortRuns(t: string, y: string)
    requires t != [] && |t| <= 20 && !IsB64Char(t[|t| - 1])
    requires ShortRuns(y)
    ensures ShortRuns(t + y)
    decreases |t|
  {
    var s := t + y;
    assert s[|t| - 1] == t[|t| - 1];
    LeadRunBelow(s, |t| - 1);
    assert s[1..] == t[1..] + y;
    if |t| > 1 {
      TokenShortRuns(t[1..], y);
    } else {
      assert t[1..] + y == y;
    }
  }

  /** A pass never lengthens the run at the front: its tokens start with
      `<`. */
  lemma {:induction false} SubLeadRun(rule: Rule, s: string)
    ensures LeadRun(Sub(rule, s)) <= LeadRun(s)
    decreases |s|
  {
    if s != [] {
      var n := MatchLen(rule, s);
      if n > 0 {
        assert (Token(rule) + Sub(rule, s[n..]))[0] == '<';
      } else {
        var out := [s[0]] + Sub(rule, s[1..]);
        assert out[0] == s[0] && out[1..] == Sub(rule, s[1..]);
        SubLeadRun(rule, s[1..]);
      }
    }
  }

  /** How one step of a scan continues. */
  lemma SubStep(rule: Rule, s: string)
    requires s != []
    ensures MatchLen(rule, s) > 0 ==>
      Sub(rule, s) == Token(rule) + Sub(rule, s[MatchLen(rule, s)..])
    ensures MatchLen(rule, s) == 0 ==>
      Sub(rule, s)[0] == s[0] && Sub(rule, s)[1..] == Sub(rule, s[1..])
  {
    if MatchLen(rule, s) == 0 {
      assert ([s[0]] + Sub(rule, s[1..]))[1..] == Sub(rule, s[1..]);
    }
  }

  /** After the base64 pass no run of twenty or more is left. */
  lemma {:induction false} Base64LeavesShortRuns(s: string)
    ensures ShortRuns(Sub(Base64, s))
    decreases |s|
  {
    if s != [] {
      var n := MatchLen(Base64, s);
      SubStep(Base64, s);
      if n > 0 {
        Base64LeavesShortRuns(s[n..]);
        var tok := Token(Base64);
        assert |tok| == 8 && tok[7] == '>';
        AngleOutsideClass();
        TokenShortRuns(tok, Sub(Base64, s[n..]));
      } else {
        Base64LeavesShortRuns(s[1..]);
        SubLeadRun(Base64, s);
      }
    }
  }

  /** The digit pass creates no long run. */
  lemma {:induction false} DigitsKeepShortRuns(s: string)
    requires ShortRuns(s)
    ensures ShortRuns(Sub(Digits, s))
    decreases |s|
  {
    if s != [] {
      var n := MatchLen(Digits, s);
      SubStep(Digits, s);
      if n > 0 {
        assert ShortRuns(s[n..]) by { ShortRunsSuffix(s, n); }
        DigitsKeepShortRuns(s[n..]);
        var tok := Token(Digits);
        assert |tok| == 5 && tok[4] == '>';
        AngleOutsideClass();
        TokenShortRuns(tok, Sub(Digits, s[n..]));
      } else {
        DigitsKeepShortRuns(s[1..]);
        SubLeadRun(Digits, s);
      }
    }
  }

  lemma {:induction false} ShortRunsSuffix(s: string, n: nat)
    requires ShortRuns(s) && n <= |s|
    ensures ShortRuns(s[n..])
    decreases n
  {
    if n > 0 {
      ShortRunsSuffix(s[1..], n - 1);
      assert s[1..][n - 1..] == s[n..];
    }
  }

  /** After the digit pass no digit is left: every maximal run became
      `<num>`. */
  lemma {:induction false} DigitsLeaveNoDigit(s: string)
    ensures NoDigit(Sub(Digits, s))
    decreases |s|
  {
    if s != [] {
      var n := MatchLen(Digits, s);
      SubStep(Digits, s);
      if n > 0 {
        DigitsLeaveNoDigit(s[n..]);
        var t := Sub(Digits, s[n..]);
        assert forall i :: 0 <= i < |t| ==> (Token(Digits) + t)[5 + i] == t[i];
      } else {
        DigitsLeaveNoDigit(s[1..]);
      }
    }
  }

  // ---------------------------------------------------------------------
  // Properties of the rewrite

  /** The rewritten base contains no decimal digit. */
  lemma RewriteBaseNoDigit(base: string)
    ensures NoDigit(RewriteBase(base))
  {
    DigitsLeaveNoDigit(Sub(Base64, Sub(Uuid, Sub(Date, base))));
  }

  /** A base without digits and without a run of twenty or more
      base64-class characters (so without a UUID either) comes back
      unchanged. */
  lemma RewriteBaseQuiet(base: string)
    requires NoDigit(base) && ShortRuns(base)
    ensures RewriteBase(base) == base
  {
    QuietIsClean(Date, base);
    CleanUnchanged(Date, base);
    QuietIsClean(Uuid, base);
    CleanUnchanged(Uuid, base);
    QuietIsClean(Base64, base);
    CleanUnchanged(Base64, base);
    QuietIsClean(Digits, base);
    CleanUnchanged(Digits, base);
  }

  /** Rewriting twice is rewriting once: the output has no digit and no
      long run left for a second round to find. */
  lemma RewriteBaseIdempotent(base: string)
    ensures RewriteBase(RewriteBase(base)) == RewriteBase(base)
  {
    var s := Sub(Base64, Sub(Uuid, Sub(Date, base)));
    Base64LeavesShortRuns(Sub(Uuid, Sub(Date, base)));
    DigitsKeepShortRuns(s);
    DigitsLeaveNoDigit(s);
    RewriteBaseQuiet(RewriteBase(base));
  }

  /** A leading `YYYY-MM-DD` becomes `<date>` and the rest is rewritten on
      its own: the date pass runs before the digit pass, so the date is
      never turned into `<num>-<num>-<num>`. */
  lemma DateRewritten(d: string, x: string)
    requires |d| == 10 && DateAt(d)
    ensures RewriteBase(d + x) == "<date>" + RewriteBase(x)
  {
    assert (d + x)[..10] == d && (d + x)[10..] == x;
    assert DateAt(d + x);
    assert Sub(Date, d + x) == "<date>" + Sub(Date, x);
    var x1 := Sub(Date, x);
    TokenInert(Uuid, "<date>", x1);
    var x2 := Sub(Uuid, x1);
    TokenInert(Base64, "<date>", x2);
    var x3 := Sub(Base64, x2);
    TokenInert(Digits, "<date>", x3);
  }

  /** No date fits inside a UUID: its dashes are five apart, a date's three. */
  lemma {:induction false} NoDateInUuid(u: string, k: nat)
    requires IsUuid(u) && k <= 36
    ensures Clean(Date, u[k..])
    decreases 36 - k
  {
    if k < 36 {
      var s := u[k..];
      if DateAt(s) {
        assert false;
      }
      NoDateInUuid(u, k + 1);
      assert s[1..] == u[k + 1..];
    }
  }

  /** A UUID, in upper or lower case, becomes `<uuid>`. */
  lemma UuidRewritten(u: string)
    requires IsUuid(u)
    ensures RewriteBase(u) == "<uuid>"
  {
    NoDateInUuid(u, 0);
    assert u[0..] == u;
    CleanUnchanged(Date, u);
    assert u[..36] == u && u[36..] == [];
    assert Sub(Uuid, u) == "<uuid>" + Sub(Uuid, []);
    assert "<uuid>" + [] == "<uuid>";
    TokenInert(Base64, "<uuid>", []);
    TokenInert(Digits, "<uuid>", []);
  }

  /** A text shorter than twenty characters holds no long run. */
  lemma {:induction false} ShortTextShortRuns(s: string)
    requires |s| < 20
    ensures ShortRuns(s)
    decreases |s|
  {
    if s != [] {
      ShortTextShortRuns(s[1..]);
    }
  }

  /** A digit-free text after a UUID is copied by the date pass, with the
      character before the UUID: a date needs its last two characters to
      be digits, so it cannot end past the UUID, and none fits inside it. */
  lemma NoDateAroundUuid(c: char, u: string, rest: string)
    requires !IsDigit(c) && IsUuid(u) && NoDigit(rest)
    ensures Sub(Date, [c] + u + rest) == [c] + u + rest
  {
    var t := [c] + u;
    forall i | 0 <= i < |t| ensures MatchLen(Date, t[i..] + rest) == 0 {
      var s := t[i..] + rest;
      if i == 0 {
        assert s[0] == c;
      } else {
        var k := i - 1;
        assert forall j :: 0 <= j < |u| - k ==> s[j] == u[k + j];
        if k + 10 <= 36 {
          NoDateInUuid(u, k);
          assert MatchLen(Date, u[k..]) == 0;
          assert forall j :: 0 <= j < 10 ==> u[k..][j] == s[j];
        } else if |s| >= 10 {
          assert s[9] == rest[k + 9 - 36];
        }
      }
    }
    PassThrough(Date, t, rest);
    DigitFreePass(Date, rest, []);
    assert rest + [] == rest;
    assert t + rest == [c] + u + rest;
  }

  /** The UUID pass on `_<UUID><rest>`: `_` starts nothing, the UUID is
      replaced, and the rest is quiet. */
  lemma UuidPassAfterSeparator(u: string, rest: string)
    requires IsUuid(u) && NoDigit(rest) && ShortRuns(rest)
    ensures Sub(Uuid, "_" + u + rest) == "_<uuid>" + rest
  {
    assert "_" + u + rest == "_" + (u + rest);
    UuidSkipsSeparator(u + rest);
    UuidAtFront(u, rest);
  }

  /** No UUID starts at `_`. */
  lemma UuidSkipsSeparator(x: string)
    ensures Sub(Uuid, "_" + x) == "_" + Sub(Uuid, x)
  {
    var m := "_" + x;
    if |m| >= 36 {
      assert m[..36][0] == m[0];
    }
    SubStep(Uuid, m);
    assert m[1..] == x;
  }

  /** A UUID at the front becomes the token; a quiet rest is left alone. */
  lemma UuidAtFront(u: string, rest: string)
    requires IsUuid(u) && NoDigit(rest) && ShortRuns(rest)
    ensures Sub(Uuid, u + rest) == "<uuid>" + rest
  {
    assert (u + rest)[..36] == u && (u + rest)[36..] == rest;
    SubStep(Uuid, u + rest);
    QuietIsClean(Uuid, rest);
    CleanUnchanged(Uuid, rest);
  }

  /** The base64 pass on `_<uuid><rest>`: `_` is a run of one, the token
      and the rest are inert. */
  lemma Base64PassAfterSeparator(rest: string)
    requires NoDigit(rest) && ShortRuns(rest)
    ensures Sub(Base64, "_<uuid>" + rest) == "_<uuid>" + rest
  {
    var m := "_<uuid>" + rest;
    var tok := "<uuid>";
    assert m[1] == '<';
    AngleOutsideClass();
    LeadRunBelow(m, 1);
    SubStep(Base64, m);
    assert m[1..] == tok + rest;
    TokenInert(Base64, tok, rest);
    QuietIsClean(Base64, rest);
    CleanUnchanged(Base64, rest);
  }

  /** The digit pass on `_<uuid><rest>` finds no digit. */
  lemma DigitsPassAfterSeparator(rest: string)
    requires NoDigit(rest)
    ensures Sub(Digits, "_<uuid>" + rest) == "_<uuid>" + rest
  {
    var m := "_<uuid>" + rest;
    assert NoDigit(m) by {
      assert forall i :: 7 <= i < |m| ==> m[i] == rest[i - 7];
    }
    DigitFreePass(Digits, m, []);
    assert m + [] == m;
  }

  /** `_<UUID><rest>` with a digit-free, run-free rest ends as
      `_<uuid><rest>`. */
  lemma UuidAfterSeparator(u: string, rest: string)
    requires IsUuid(u) && NoDigit(rest) && ShortRuns(rest)
    ensures RewriteBase("_" + u + rest) == "_<uuid>" + rest
  {
    var m := "_" + u + rest;
    var m2 := "_<uuid>" + rest;
    assert !IsDigit('_');
    NoDateAroundUuid('_', u, rest);
    assert Sub(Date, m) == m;
    UuidPassAfterSeparator(u, rest);
    assert Sub(Uuid, m) == m2;
    Base64PassAfterSeparator(rest);
    DigitsPassAfterSeparator(rest);
  }

  /** The base of an exported media file, `<date>_<uuid><rest>` with a
      digit-free `rest` such as `-main` or `-overlay`: the date becomes
      `<date>`, the UUID `<uuid>`, and the rest stays. */
  lemma ExportBaseRewritten(d: string, u: string, rest: string)
    requires |d| == 10 && DateAt(d) && IsUuid(u)
    requires NoDigit(rest) && ShortRuns(rest)
    ensures RewriteBase(d + "_" + u + rest) == "<date>_<uuid>" + rest
  {
    var m := "_" + u + rest;
    assert d + "_" + u + rest == d + m;
    DateRewritten(d, m);
    UuidAfterSeparator(u, rest);
    assert "<date>" + ("_<uuid>" + rest) == "<date>_<uuid>" + rest;
  }

  /** The name of an exported file, `<date>_<uuid><rest><ext>`: the base
      is rewritten as above and the extension is kept as it is. */
  lemma ExportNameRewritten(d: string, u: string, rest: string, ext: string)
    requires |d| == 10 && DateAt(d) && IsUuid(u)
    requires NoDigit(rest) && ShortRuns(rest) && NoChar(rest, '/')
    requires IsExtShape(ext)
    ensures ExtractPattern(d + "_" + u + rest + ext) == "<date>_<uuid>" + rest + ext
  {
    var base := d + "_" + u + rest;
    ExportBaseNoSlash(d, u, rest);
    assert base[0] == d[0] && base[0] != '.';
    SplitExtJoin(base, ext);
    ExportBaseRewritten(d, u, rest);
  }

  /** `-main` holds no digit, no long run and no `/`. */
  lemma MainTagQuiet()
    ensures NoDigit("-main") && ShortRuns("-main") && NoChar("-main", '/')
  {
    var t := "-main";
    assert t[0] == '-' && t[1] == 'm' && t[2] == 'a' && t[3] == 'i' && t[4] == 'n';
    ShortTextShortRuns(t);
  }

  /** The name of an exported main file, `<date>_<uuid>-main<ext>`, becomes
      `<date>_<uuid>-main<ext>` with the extension kept as it is. */
  lemma ExportMainNameRewritten(d: string, u: string, ext: string)
    requires |d| == 10 && DateAt(d) && IsUuid(u) && IsExtShape(ext)
    ensures ExtractPattern(d + "_" + u + "-main" + ext) == "<date>_<uuid>-main" + ext
  {
    MainTagQuiet();
    ExportNameRewritten(d, u, "-main", ext);
  }

  /** Dates and UUIDs hold no `/`, so neither does an export base. */
  lemma ExportBaseNoSlash(d: string, u: string, rest: string)
    requires |d| == 10 && DateAt(d) && IsUuid(u) && NoChar(rest, '/')
    ensures NoChar(d + "_" + u + rest, '/')
  {
    assert NoChar(d, '/') by {
      forall i | 0 <= i < 10 ensures d[i] != '/' {
        assert IsDigit(d[i]) || d[i] == '-';
      }
    }
    assert NoChar(u, '/') by {
      forall i | 0 <= i < 36 ensures u[i] != '/' {
        assert IsHex(u[i]) || u[i] == '-';
      }
    }
    NoCharJoin(d, "_", '/');
    NoCharJoin(d + "_", u, '/');
    NoCharJoin(d + "_" + u, rest, '/');
  }

  lemma NoCharJoin(a: string, b: string, c: char)
    requires NoChar(a, c) && NoChar(b, c)
    ensures NoChar(a + b, c)
  {
    assert forall i :: |a| <= i < |a + b| ==> (a + b)[i] == b[i - |a|];
  }

  /** The UUID pass ignores case: a text and its lower-case form match
      alike. */
  lemma UuidCaseInsensitive(s: string)
    ensures MatchLen(Uuid, s) == MatchLen(Uuid, Lower(s))
  {
    if |s| >= 36 {
      var a := s[..36];
      var b := Lower(s)[..36];
      forall i | 0 <= i < 36 ensures (IsHex(a[i]) <==> IsHex(b[i])) && (a[i] == '-' <==> b[i] == '-') {
        assert b[i] == LowerChar(a[i]);
      }
    }
  }

  /** A maximal run of twenty or more base64-class characters collapses to
      one `<base64>`. */
  lemma Base64Collapses(r: string, x: string)
    requires |r| >= 20 && forall i :: 0 <= i < |r| ==> IsB64Char(r[i])
    requires x == [] || !IsB64Char(x[0])
    ensures Sub(Base64, r + x) == "<base64>" + Sub(Base64, x)
  {
    LeadRunConcat(r, x);
    assert (r + x)[|r|..] == x;
  }

  /** The digit pass then rewrites the `64` of that token. */
  lemma Base64TokenRenumbered()
    ensures Sub(Digits, "<base64>") == "<base<num>>"
  {
    var head := "<base";
    var u := "64>";
    assert head + u == "<base64>";
    assert NoDigit(head);
    DigitFreePass(Digits, head, u);
    assert u[1..] == "4>" && u[2..] == ">";
    assert DigitRun(u[2..]) == 0;
    assert DigitRun(u) == 2;
    var close := ">";
    assert Sub(Digits, close) == [close[0]] + Sub(Digits, []);
    assert Sub(Digits, u) == "<num>" + close;
    assert head + ("<num>" + close) == "<base<num>>";
  }

  /** The date pass and the digit pass copy a stretch without digits:
      their matches start with one. */
  lemma DigitFreePass(rule: Rule, t: string, y: string)
    requires rule == Date || rule == Digits
    requires NoDigit(t)
    ensures Sub(rule, t + y) == t + Sub(rule, y)
  {
    forall i | 0 <= i < |t| ensures MatchLen(rule, t[i..] + y) == 0 {
      assert (t[i..] + y)[0] == t[i];
    }
    PassThrough(rule, t, y);
  }

  /** A base that is one long run of letters and `+/=_` ends up as
      `<base<num>>`. */
  lemma LetterRunRewritten(r: string)
    requires |r| >= 20
    requires forall i :: 0 <= i < |r| ==> IsB64Char(r[i]) && !IsDigit(r[i]) && r[i] != '-'
    ensures RewriteBase(r) == "<base<num>>"
  {
    assert Clean(Date, r) && Clean(Uuid, r) by {
      NoDashClean(r);
    }
    CleanUnchanged(Date, r);
    CleanUnchanged(Uuid, r);
    Base64Collapses(r, []);
    assert r + [] == r;
    assert Sub(Base64, r) == "<base64>";
    Base64TokenRenumbered();
  }

  /** Without digits or dashes, neither dates nor UUIDs match. */
  lemma {:induction false} NoDashClean(s: string)
    requires forall i :: 0 <= i < |s| ==> !IsDigit(s[i]) && s[i] != '-'
    ensures Clean(Date, s) && Clean(Uuid, s)
    decreases |s|
  {
    if s != [] {
      if |s| >= 36 {
        assert s[..36][8] == s[8];
      }
      NoDashClean(s[1..]);
    }
  }
  // ---------------------------------------------------------------------
  // The extension survives the rewrite

  /** `c` does not occur in `s`. */
  predicate NoChar(s: string, c: char) {
    forall i :: 0 <= i < |s| ==> s[i] != c
  }

  /** In `s`, no dot comes after a character other than a dot: a file name
      that `splitext` leaves without extension. */
  predicate DotsFirst(s: string) {
    forall i, j :: 0 <= i < j < |s| && s[j] == '.' ==> s[i] == '.'
  }

  /** `DotsFirst`, one character at a time. */
  predicate DotsLead(s: string)
    decreases |s|
  {
    s == [] || (s[0] == '.' && DotsLead(s[1..])) || NoChar(s, '.')
  }

  lemma {:induction false} DotsLeadIff(s: string)
    ensures DotsLead(s) <==> DotsFirst(s)
    decreases |s|
  {
    if s != [] {
      DotsLeadIff(s[1..]);
      if s[0] == '.' {
        if DotsFirst(s[1..]) {
          forall i, j | 0 <= i < j < |s| && s[j] == '.' ensures s[i] == '.' {
            if i > 0 {
              assert s[1..][i - 1] == s[i] && s[1..][j - 1] == s[j];
            }
          }
        }
        if DotsFirst(s) {
          forall i, j | 0 <= i < j < |s[1..]| && s[1..][j] == '.' ensures s[1..][i] == '.' {
            assert s[1..][i] == s[i + 1] && s[1..][j] == s[j + 1];
          }
        }
      }
    }
  }

  /** A pass adds no `c` that its token does not contain. */
  lemma {:induction false} SubNoChar(rule: Rule, s: string, c: char)
    requires NoChar(s, c) && NoChar(Token(rule), c)
    ensures NoChar(Sub(rule, s), c)
    decreases |s|
  {
    if s != [] {
      var n := MatchLen(rule, s);
      SubStep(rule, s);
      if n > 0 {
        SubNoChar(rule, s[n..], c);
        var t := Sub(rule, s[n..]);
        assert forall i :: 0 <= i < |t| ==> (Token(rule) + t)[|Token(rule)| + i] == t[i];
      } else {
        SubNoChar(rule, s[1..], c);
      }
    }
  }

  /** No token holds a dot or a slash. */
  lemma TokenPlain(rule: Rule)
    ensures NoChar(Token(rule), '.') && NoChar(Token(rule), '/')
  {
    var t := Token(rule);
    forall i | 0 <= i < |t| ensures t[i] != '.' && t[i] != '/' {
      assert t[i] in "<>datebs64uinm";
    }
  }

  /** The rewrite adds no dot and no slash. */
  lemma RewriteBaseNoChar(base: string, c: char)
    requires c == '.' || c == '/'
    requires NoChar(base, c)
    ensures NoChar(RewriteBase(base), c)
  {
    TokenPlain(Date);
    TokenPlain(Uuid);
    TokenPlain(Base64);
    TokenPlain(Digits);
    var s1 := Sub(Date, base);
    SubNoChar(Date, base, c);
    var s2 := Sub(Uuid, s1);
    SubNoChar(Uuid, s1, c);
    var s3 := Sub(Base64, s2);
    SubNoChar(Base64, s2, c);
    SubNoChar(Digits, s3, c);
  }

  /** No pass starts a match at a dot. */
  lemma DotUnmatched(rule: Rule, s: string)
    requires s != [] && s[0] == '.'
    ensures MatchLen(rule, s) == 0
  {
    if MatchLen(rule, s) > 0 {
      MatchStartsInClass(rule, s);
      assert false;
    }
  }

  /** A pass keeps the leading dots of a name and adds no dot after them. */
  lemma {:induction false} SubDotsLead(rule: Rule, s: string)
    requires DotsLead(s)
    ensures DotsLead(Sub(rule, s))
    decreases |s|
  {
    if s != [] {
      if s[0] == '.' && DotsLead(s[1..]) {
        DotUnmatched(rule, s);
        SubStep(rule, s);
        SubDotsLead(rule, s[1..]);
      } else {
        TokenPlain(rule);
        SubNoChar(rule, s, '.');
      }
    }
  }

  /** A pass keeps "some character is not a dot". */
  lemma {:induction false} SubHasNonDot(rule: Rule, s: string)
    requires HasNonDot(s)
    ensures HasNonDot(Sub(rule, s))
    decreases |s|
  {
    var out := Sub(rule, s);
    SubStep(rule, s);
    if MatchLen(rule, s) > 0 {
      assert out[0] == '<';
    } else if s[0] != '.' {
      assert out[0] == s[0];
    } else {
      var k :| 0 <= k < |s| && s[k] != '.';
      assert s[1..][k - 1] == s[k];
      SubHasNonDot(rule, s[1..]);
      var k' :| 0 <= k' < |out[1..]| && out[1..][k'] != '.';
      assert out[k' + 1] == out[1..][k'];
    }
  }

  lemma RewriteBaseShape(base: string)
    ensures DotsLead(base) ==> DotsLead(RewriteBase(base))
    ensures HasNonDot(base) ==> HasNonDot(RewriteBase(base))
  {
    var s1 := Sub(Date, base);
    var s2 := Sub(Uuid, s1);
    var s3 := Sub(Base64, s2);
    if DotsLead(base) {
      SubDotsLead(Date, base);
      SubDotsLead(Uuid, s1);
      SubDotsLead(Base64, s2);
      SubDotsLead(Digits, s3);
    }
    if HasNonDot(base) {
      SubHasNonDot(Date, base);
      SubHasNonDot(Uuid, s1);
      SubHasNonDot(Base64, s2);
      SubHasNonDot(Digits, s3);
    }
  }

  /** The last occurrence of `c` is the one after which no `c` follows. */
  lemma RFindAt(s: string, c: char, k: nat)
    requires k < |s| && s[k] == c
    requires forall i :: k < i < |s| ==> s[i] != c
    ensures RFind(s, c) == k
  {}

  /** Without a slash, `rfind('/')` finds nothing. */
  lemma RFindNone(s: string, c: char)
    requires NoChar(s, c)
    ensures RFind(s, c) == -1
  {}

  /** A slash-free name whose dots all come first has no extension. */
  lemma SplitExtNoExt(p: string)
    requires NoChar(p, '/') && DotsFirst(p)
    ensures SplitExt(p) == (p, [])
  {
    RFindNone(p, '/');
    var dot := RFind(p, '.');
    if dot > -1 && HasNonDot(p[0..dot]) {
      assert false;
    }
  }

  /** A slash-free base with a character other than a dot, followed by an
      extension, splits back into the two. */
  lemma SplitExtJoin(p: string, ext: string)
    requires NoChar(p, '/') && HasNonDot(p) && IsExtShape(ext)
    ensures SplitExt(p + ext) == (p, ext)
  {
    var out := p + ext;
    assert NoChar(out, '/') by {
      assert forall i :: 0 <= i < |p| ==> out[i] == p[i];
      assert forall i :: 0 <= i < |ext| ==> out[|p| + i] == ext[i];
    }
    RFindNone(out, '/');
    assert forall i :: |p| < i < |out| ==> out[i] == ext[i - |p|];
    RFindAt(out, '.', |p|);
    assert out[0..|p|] == p && out[..|p|] == p && out[|p|..] == ext;
  }

  /** For a file name (no `/`), the pattern splits into the rewritten base
      and the very extension of the name: the rewrite never creates or
      hides an extension. */
  lemma ExtractPatternSplit(filename: string)
    requires NoChar(filename, '/')
    ensures SplitExt(ExtractPattern(filename)) == (RewriteBase(SplitExt(filename).0), SplitExt(filename).1)
  {
    var (base, ext) := SplitExt(filename);
    var p := RewriteBase(base);
    RFindNone(filename, '/');
    assert NoChar(base, '/') by {
      assert forall i :: 0 <= i < |base| ==> base[i] == filename[i];
    }
    RewriteBaseNoChar(base, '/');
    RewriteBaseShape(base);
    if ext == [] {
      assert base == filename && p + ext == p;
      SplitExtNone(filename);
      DotsLeadIff(filename);
      DotsLeadIff(p);
      SplitExtNoExt(p);
    } else {
      SplitExtShape(filename);
      SplitExtBase(filename);
      assert base[0..] == base;
      SplitExtJoin(p, ext);
    }
  }

  /** `extract_pattern` is idempotent on file names: a pattern is its own
      pattern, so grouping files by pattern is stable. */
  lemma ExtractPatternIdempotent(filename: string)
    requires NoChar(filename, '/')
    ensures ExtractPattern(ExtractPattern(filename)) == ExtractPattern(filename)
  {
    var (base, ext) := SplitExt(filename);
    var out := ExtractPattern(filename);
    ExtractPatternSplit(filename);
    RewriteBaseIdempotent(base);
  }
}

=== FILE: seqs.dfy ===
/** Sequence helpers shared by the passes: order-preserving filtering and
    first-seen de-duplication. */
module Seqs {

  /** No element occurs twice. */
  predicate Distinct<T(==)>(xs: seq<T>) {
    forall i, j :: 0 <= i < j < |xs| ==> xs[i] != xs[j]
  }

  /** The elements of `xs` satisfying `p`, in their original order (a list
      comprehension with an `if`). */
  function Filter<T(==,!new)>(xs: seq<T>, p: T -> bool): (r: seq<T>)
    ensures |r| <= |xs|
    ensures forall x :: x in r <==> x in xs && p(x)
    decreases |xs|
  {
    if xs == [] then []
    else
      var init := Filter(xs[..|xs| - 1], p);
      assert xs == xs[..|xs| - 1] + [xs[|xs| - 1]];
      if p(xs[|xs| - 1]) then init + [xs[|xs| - 1]] else init
  }

  lemma FilterAppend<T(!new)>(xs: seq<T>, x: T, p: T -> bool)
    ensures Filter(xs + [x], p) == if p(x) then Filter(xs, p) + [x] else Filter(xs, p)
  {
    assert (xs + [x])[..|xs + [x]| - 1] == xs;
  }

  /** Filtering by `p` and by its complement `q` splits `xs` into two parts
      whose elements, counted with multiplicity, are exactly those of `xs`. */
  lemma {:induction false} FilterPartition<T(!new)>(xs: seq<T>, p: T -> bool, q: T -> bool)
    requires forall x :: q(x) == !p(x)
    ensures multiset(Filter(xs, p)) + multiset(Filter(xs, q)) == multiset(xs)
    ensures |Filter(xs, p)| + |Filter(xs, q)| == |xs|
    decreases |xs|
  {
    if xs != [] {
      var init := xs[..|xs| - 1];
      var last := xs[|xs| - 1];
      assert xs == init + [last];
      FilterPartition(init, p, q);
      FilterAppend(init, last, p);
      FilterAppend(init, last, q);
    }
  }

  /** A filter whose test every element passes changes nothing. */
  lemma {:induction false} FilterAll<T(!new)>(xs: seq<T>, p: T -> bool)
    requires forall x :: x in xs ==> p(x)
    ensures Filter(xs, p) == xs
    decreases |xs|
  {
    if xs != [] {
      var init := xs[..|xs| - 1];
      assert xs == init + [xs[|xs| - 1]];
      FilterAll(init, p);
    }
  }

  /** A filter keeps every element that passes and whose copies all pass:
      filtering a distinct sequence keeps it distinct. */
  lemma {:induction false} FilterDistinct<T(!new)>(xs: seq<T>, p: T -> bool)
    requires Distinct(xs)
    ensures Distinct(Filter(xs, p))
    decreases |xs|
  {
    if xs != [] {
      var init := xs[..|xs| - 1];
      var last := xs[|xs| - 1];
      assert xs == init + [last];
      assert Distinct(init);
      FilterDistinct(init, p);
      FilterAppend(init, last, p);
      assert last !in init;
    }
  }

  /** The distinct elements of `xs` in order of their first occurrence. */
  function FirstOccurrences<T(==,!new)>(xs: seq<T>): (r: seq<T>)
    ensures Distinct(r)
    ensures forall x :: x in r <==> x in xs
    decreases |xs|
  {
    if xs == [] then []
    else
      var init := FirstOccurrences(xs[..|xs| - 1]);
      var last := xs[|xs| - 1];
      assert xs == xs[..|xs| - 1] + [last];
      if last in init then init else init + [last]
  }

  lemma FirstOccurrencesAppend<T(!new)>(xs: seq<T>, x: T)
    ensures FirstOccurrences(xs + [x]) ==
            if x in xs then FirstOccurrences(xs) else FirstOccurrences(xs) + [x]
  {
    assert (xs + [x])[..|xs + [x]| - 1] == xs;
  }

  lemma DistinctAppend<T>(xs: seq<T>, x: T)
    requires Distinct(xs) && x !in xs
    ensures Distinct(xs + [x])
  {
  }

  /** Keeping first occurrences shortens a sequence exactly when it repeats
      an element. */
  lemma {:induction false} FirstOccurrencesLength<T(!new)>(xs: seq<T>)
    ensures |FirstOccurrences(xs)| <= |xs|
    ensures |FirstOccurrences(xs)| == |xs| <==> Distinct(xs)
    ensures Distinct(xs) ==> FirstOccurrences(xs) == xs
    decreases |xs|
  {
    if xs != [] {
      var init := xs[..|xs| - 1];
      var x := xs[|xs| - 1];
      FirstOccurrencesLength(init);
      assert xs == init + [x];
      if x in init {
        var k :| 0 <= k < |init| && init[k] == x;
        assert xs[k] == xs[|xs| - 1];
      } else {
        assert Distinct(xs) <==> Distinct(init);
      }
    }
  }

  /** The first components of a sequence of pairs. */
  function Firsts<K, V>(kvs: seq<(K, V)>): (r: seq<K>)
    ensures |r| == |kvs|
    ensures forall i :: 0 <= i < |kvs| ==> r[i] == kvs[i].0
  {
    seq(|kvs|, i requires 0 <= i < |kvs| => kvs[i].0)
  }
}

=== FILE: text.dfy ===
/** The Python `str` operations the passes rely on, over `seq<char>`. */
module Text {

  /** `sub in s`: `sub` occurs somewhere in `s`. */
  predicate Contains(s: string, sub: string)
    decreases |s|
  {
    StartsWith(s, sub) || (s != [] && Contains(s[1..], sub))
  }

  /** An occurrence anywhere is found by `in`. */
  lemma {:induction false} ContainsInside(x: string, sub: string, y: string)
    ensures Contains(x + sub + y, sub)
    decreases |x|
  {
    if x == [] {
      assert x + sub + y == sub + y;
      assert (sub + y)[..|sub|] == sub;
    } else {
      assert (x + sub + y)[1..] == x[1..] + sub + y;
      ContainsInside(x[1..], sub, y);
    }
  }

  /** `s.startswith(prefix)`. */
  predicate StartsWith(s: string, prefix: string) {
    |prefix| <= |s| && s[..|prefix|] == prefix
  }

  /** `s.endswith(suffix)`. */
  predicate EndsWith(s: string, suffix: string) {
    |suffix| <= |s| && s[|s| - |suffix|..] == suffix
  }

  /** ASCII case folding; the only letters the passes compare against are
      ASCII, and no other character lower-cases into one of them that matters
      here. */
  function LowerChar(c: char): char {
    if 'A' <= c <= 'Z' then (c as int + 32) as char else c
  }

  /** `s.lower()`, restricted to ASCII letters. */
  function Lower(s: string): (r: string)
    ensures |r| == |s|
    ensures forall i :: 0 <= i < |s| ==> r[i] == LowerChar(s[i])
  {
    seq(|s|, i requires 0 <= i < |s| => LowerChar(s[i]))
  }

  /** `s.rfind(c)`: the index of the last `c`, or -1 when there is none. */
  function RFind(s: string, c: char): (r: int)
    ensures -1 <= r < |s|
    ensures r >= 0 ==> s[r] == c
    ensures forall i :: r < i < |s| ==> s[i] != c
  {
    LastBefore(s, c, |s|)
  }

  /** The index of the last `c` among the first `k` characters of `s`, or
      -1 when there is none. */
  function LastBefore(s: string, c: char, k: nat): (r: int)
    requires k <= |s|
    ensures -1 <= r < k
    ensures r >= 0 ==> s[r] == c
    ensures forall i :: r < i < k ==> s[i] != c
    decreases k
  {
    if k == 0 then -1 else if s[k - 1] == c then k - 1 else LastBefore(s, c, k - 1)
  }

  /** `s.replace(old, new)`: the occurrences of `old` are found left to right
      without overlapping, and each one is replaced by `new`. */
  function Replace(s: string, pat: string, rep: string): (r: string)
    requires |pat| > 0
    decreases |s|
  {
    if |s| < |pat| then s
    else if s[..|pat|] == pat then rep + Replace(s[|pat|..], pat, rep)
    else [s[0]] + Replace(s[1..], pat, rep)
  }

  /** A text in which `pat` does not occur is left as it is. */
  lemma {:induction false} ReplaceNotFound(s: string, pat: string, rep: string)
    requires |pat| > 0 && !Contains(s, pat)
    ensures Replace(s, pat, rep) == s
    decreases |s|
  {
    if |s| >= |pat| {
      ReplaceNotFound(s[1..], pat, rep);
      assert [s[0]] + s[1..] == s;
    }
  }

  /** A text none of whose characters can start `pat` is left as it is. */
  lemma {:induction false} ReplaceAbsent(s: string, pat: string, rep: string)
    requires |pat| > 0
    requires forall k :: 0 <= k < |s| ==> s[k] != pat[0]
    ensures Replace(s, pat, rep) == s
    decreases |s|
  {
    if |s| >= |pat| {
      assert s[..|pat|][0] == s[0];
      ReplaceAbsent(s[1..], pat, rep);
    }
  }

  lemma PrefixAt(a: string, b: string, p: nat)
    requires |a| < p <= |a + b|
    ensures (a + b)[..p][|a|] == b[0]
  {
  }

  /** Replacing in `a + b` touches only `a` when no occurrence of `pat` can
      start in `b` or run across into it: no character of `b` is the first
      of `pat`, and the first character of `b` appears nowhere in `pat`. */
  lemma {:induction false} ReplaceKeepsTail(a: string, b: string, pat: string, rep: string)
    requires |pat| > 0
    requires forall k :: 0 <= k < |b| ==> b[k] != pat[0]
    requires b != [] ==> forall j :: 0 <= j < |pat| ==> pat[j] != b[0]
    ensures Replace(a + b, pat, rep) == Replace(a, pat, rep) + b
    decreases |a|
  {
    var p := |pat|;
    if a == [] {
      assert a + b == b;
      ReplaceAbsent(b, pat, rep);
    } else if |a + b| < p {
    } else if (a + b)[..p] == pat {
      if |a| < p {
        PrefixAt(a, b, p);
        assert false;
      }
      assert a[..p] == pat;
      assert (a + b)[p..] == a[p..] + b;
      ReplaceKeepsTail(a[p..], b, pat, rep);
    } else {
      assert (a + b)[1..] == a[1..] + b;
      ReplaceKeepsTail(a[1..], b, pat, rep);
      if |a| >= p {
        assert a[..p] == (a + b)[..p];
      }
    }
  }

  /** No occurrence of `pat` starts inside `x` and runs across into `rest`
      when `rest` starts with the first character of `pat`, a character
      `pat` holds nowhere else. */
  lemma NoMatchAcross(x: string, rest: string, pat: string)
    requires |pat| > 0 && x != [] && !StartsWith(x, pat)
    requires forall j :: 1 <= j < |pat| ==> pat[j] != pat[0]
    requires rest != [] && rest[0] == pat[0]
    ensures |x + rest| >= |pat| ==> (x + rest)[..|pat|] != pat
  {
    var p := |pat|;
    if |x + rest| >= p {
      if |x| < p {
        PrefixAt(x, rest, p);
        assert pat[|x|] != pat[0];
      } else {
        assert (x + rest)[..p] == x[..p];
      }
    }
  }

  /** When `pat` does not occur in `x`, and the text after `x` starts with
      the first character of `pat`, a character `pat` holds nowhere else,
      no occurrence runs across the end of `x`: replacing leaves `x` as it
      is. */
  lemma {:induction false} ReplaceSkipsHead(x: string, rest: string, pat: string, rep: string)
    requires |pat| > 0 && !Contains(x, pat)
    requires forall j :: 1 <= j < |pat| ==> pat[j] != pat[0]
    requires rest != [] && rest[0] == pat[0]
    ensures Replace(x + rest, pat, rep) == x + Replace(rest, pat, rep)
    decreases |x|
  {
    if x == [] {
      assert x + rest == rest;
    } else {
      var s := x + rest;
      NoMatchAcross(x, rest, pat);
      assert s[1..] == x[1..] + rest;
      ReplaceSkipsHead(x[1..], rest, pat, rep);
      if |s| < |pat| {
        assert Replace(s, pat, rep) == s;
        assert Replace(rest, pat, rep) == rest;
      } else {
        assert Replace(s, pat, rep) == [s[0]] + Replace(s[1..], pat, rep);
      }
    }
  }

  /** An occurrence at the very start is replaced, and the scan goes on
      after it. */
  lemma ReplaceAtStart(pat: string, t: string, rep: string)
    requires |pat| > 0
    ensures Replace(pat + t, pat, rep) == rep + Replace(t, pat, rep)
  {
    assert (pat + t)[..|pat|] == pat;
    assert (pat + t)[|pat|..] == t;
  }

  /** A single occurrence of `pat` between a text free of `pat` and a text
      none of whose characters can start it is the only one replaced. */
  lemma ReplaceOnce(x: string, pat: string, sfx: string, rep: string)
    requires |pat| > 0 && !Contains(x, pat)
    requires forall j :: 1 <= j < |pat| ==> pat[j] != pat[0]
    requires forall k :: 0 <= k < |sfx| ==> sfx[k] != pat[0]
    ensures Replace(x + pat + sfx, pat, rep) == x + rep + sfx
  {
    var rest := pat + sfx;
    assert x + pat + sfx == x + rest;
    ReplaceSkipsHead(x, rest, pat, rep);
    ReplaceAtStart(pat, sfx, rep);
    ReplaceAbsent(sfx, pat, rep);
  }

  lemma ConcatEmpty(x: string, y: string)
    ensures x + "" + y == x + y
  {
  }

  /** How many occurrences `Replace(s, pat, _)` replaces. */
  function ReplaceCount(s: string, pat: string): nat
    requires |pat| > 0
    decreases |s|
  {
    if |s| < |pat| then 0
    else if s[..|pat|] == pat then 1 + ReplaceCount(s[|pat|..], pat)
    else ReplaceCount(s[1..], pat)
  }

  /** Deleting every occurrence of `pat` shortens `s` by a whole number of
      copies of `pat`. */
  lemma {:induction false} RemoveAllLength(s: string, pat: string)
    requires |pat| > 0
    ensures |s| == |Replace(s, pat, [])| + ReplaceCount(s, pat) * |pat|
    decreases |s|
  {
    var p := |pat|;
    if |s| >= p {
      if s[..p] == pat {
        var t := s[p..];
        RemoveAllLength(t, pat);
        assert Replace(s, pat, []) == [] + Replace(t, pat, []);
        MulSucc(ReplaceCount(t, pat), p);
      } else {
        var t := s[1..];
        RemoveAllLength(t, pat);
        assert Replace(s, pat, []) == [s[0]] + Replace(t, pat, []);
      }
    }
  }

  lemma MulSucc(c: nat, p: nat)
    ensures (c + 1) * p == c * p + p
  {}

  /** `c.isspace()` for Python: the characters whose bidirectional class is
      WS, B or S, or whose category is Zs. */
  predicate IsSpace(c: char) {
    var n := c as int;
    (0x09 <= n <= 0x0D) || (0x1C <= n <= 0x20) || n == 0x85 || n == 0xA0
    || n == 0x1680 || (0x2000 <= n <= 0x200A) || n == 0x2028 || n == 0x2029
    || n == 0x202F || n == 0x205F || n == 0x3000
  }

  /** `s.lstrip()` */
  function StripLeft(s: string): string {
    if s != [] && IsSpace(s[0]) then StripLeft(s[1..]) else s
  }

  /** `s.rstrip()` */
  function StripRight(s: string): string {
    if s != [] && IsSpace(s[|s| - 1]) then StripRight(s[..|s| - 1]) else s
  }

  lemma {:induction false} StripLeftSpec(s: string)
    ensures |StripLeft(s)| <= |s| && StripLeft(s) == s[|s| - |StripLeft(s)|..]
    ensures StripLeft(s) == [] || !IsSpace(StripLeft(s)[0])
    ensures forall i :: 0 <= i < |s| - |StripLeft(s)| ==> IsSpace(s[i])
  {
    if s != [] && IsSpace(s[0]) {
      var t := s[1..];
      StripLeftSpec(t);
      var l := StripLeft(t);
      assert StripLeft(s) == l;
      forall i | 0 <= i < |s| - |l| ensures IsSpace(s[i]) {
        if i > 0 {
          assert s[i] == t[i - 1];
        }
      }
      assert t[|t| - |l|..] == s[|s| - |l|..];
    }
  }

  lemma {:induction false} StripRightEmpty(s: string)
    ensures StripRight(s) == [] <==> forall i :: 0 <= i < |s| ==> IsSpace(s[i])
  {
    if s != [] && IsSpace(s[|s| - 1]) {
      StripRightEmpty(s[..|s| - 1]);
    }
  }

  /** `s.strip()`. */
  function Strip(s: string): string {
    StripRight(StripLeft(s))
  }

  /** Stripping leaves nothing exactly when every character is whitespace,
      so `not out.strip()` is the test "the output is blank". */
  lemma StripEmptyIffBlank(s: string)
    ensures Strip(s) == [] <==> forall i :: 0 <= i < |s| ==> IsSpace(s[i])
  {
    var l := StripLeft(s);
    StripLeftSpec(s);
    StripRightEmpty(l);
    if Strip(s) == [] {
      assert l == [];
    }
  }
}

=== FILE: voice_memos.dfy ===
/** `find_voice_memos`: an `.mp4` in which the video-stream probe reports
    nothing is an audio-only clip and gets `-voicememo` added to its stem.
    The listing is taken once, before the loop; each file is then probed and
    renamed in turn, on the tree as the earlier renames left it. The probe
    (ffprobe) is a parameter: `None` when running it raises, otherwise its
    standard output. */
module VoiceMemos {
  import opened Options
  import opened Text
  import opened Paths
  import opened Files
  import opened Seqs

  /** `tmp_dir.rglob('*.mp4')`: the name ends in `.mp4`, case-sensitively. */
  predicate IsMp4Candidate(e: Entry) {
    EndsWith(e.path.name, ".mp4")
  }

  /** `not result.stdout.strip()` for a probe that ran. */
  predicate IsVoiceMemo(e: Entry, probe: Entry -> Option<string>) {
    IsMp4Candidate(e) && probe(e).Some? && Strip(probe(e).value) == []
  }

  /** `file.with_name(file.stem + '-voicememo' + file.suffix)`: the same
      directory, the same suffix, and `-voicememo` at the end of the stem. */
  function VoiceMemoPath(p: FilePath): (q: FilePath)
    ensures q.parent == p.parent
    ensures |q.name| == |p.name| + 10
    ensures Suffix(p.name) != [] ==> Suffix(q.name) == Suffix(p.name)
    ensures Suffix(p.name) != [] ==> Stem(q.name) == Stem(p.name) + "-voicememo"
  {
    var stem := Stem(p.name);
    var sfx := Suffix(p.name);
    assert sfx != [] ==> Suffix(stem + "-voicememo" + sfx) == sfx
                         && Stem(stem + "-voicememo" + sfx) == stem + "-voicememo" by {
      if sfx != [] {
        SuffixOfAppend(stem + "-voicememo", sfx);
      }
    }
    WithName(p, stem + "-voicememo" + sfx)
  }

  /** An ordinary `<x>.mp4` becomes `<x>-voicememo.mp4`. */
  lemma VoiceMemoName(parent: string, x: string)
    requires |x| > 0
    ensures VoiceMemoPath(FilePath(parent, x + ".mp4")).name == x + "-voicememo.mp4"
  {
    SuffixOfAppend(x, ".mp4");
  }

  /** The name `.mp4` alone has no suffix for `pathlib`, so `-voicememo`
      goes after all of it. */
  lemma BareMp4Name(parent: string)
    ensures VoiceMemoPath(FilePath(parent, ".mp4")).name == ".mp4-voicememo"
  {
    var n := ".mp4";
    assert n[0] == '.' && n[1] == 'm' && n[2] == 'p' && n[3] == '4';
    assert RFind(n, '.') == 0;
  }

  /** The new path of an `.mp4`: `-voicememo` before the suffix, or after
      the whole name when it is only `.mp4`. */
  lemma Mp4MemoName(p: FilePath)
    requires EndsWith(p.name, ".mp4")
    ensures var x := p.name[..|p.name| - 4];
            VoiceMemoPath(p).name == if x != [] then x + "-voicememo.mp4" else ".mp4-voicememo"
  {
    var x := p.name[..|p.name| - 4];
    assert p.name == x + ".mp4";
    if x != [] {
      VoiceMemoName(p.parent, x);
    } else {
      BareMp4Name(p.parent);
    }
  }

  /** Two different `.mp4` files never get the same new path. */
  lemma VoiceMemoPathInjective(p: FilePath, q: FilePath)
    requires EndsWith(p.name, ".mp4") && EndsWith(q.name, ".mp4") && p != q
    ensures VoiceMemoPath(p) != VoiceMemoPath(q)
  {
    if p.parent == q.parent {
      var x := p.name[..|p.name| - 4];
      var y := q.name[..|q.name| - 4];
      assert p.name == x + ".mp4" && q.name == y + ".mp4";
      Mp4MemoName(p);
      Mp4MemoName(q);
      MemoNamesDiffer(x, y);
    }
  }

  lemma MemoNamesDiffer(x: string, y: string)
    requires x != y
    ensures (if x != [] then x + "-voicememo.mp4" else ".mp4-voicememo")
            != (if y != [] then y + "-voicememo.mp4" else ".mp4-voicememo")
  {
    var t := "-voicememo.mp4";
    if x != [] && y != [] && |x| == |y| {
      assert (x + t)[..|x|] == x && (y + t)[..|y|] == y;
    }
  }

  /** One file on its own: renamed in place when it is a voice memo. This
      is the pass's effect on each file when no rename meets another
      file. */
  function Processed(e: Entry, probe: Entry -> Option<string>): (r: Entry)
    ensures r.content == e.content && r.path.parent == e.path.parent
    ensures r.path != e.path ==> IsVoiceMemo(e, probe)
  {
    if IsVoiceMemo(e, probe) then Entry(VoiceMemoPath(e.path), e.content) else e
  }

  /** The renamed paths of the voice memos among `es`, in order. */
  function MemoPaths(es: seq<Entry>, probe: Entry -> Option<string>): seq<FilePath>
    decreases |es|
  {
    if es == [] then []
    else (if IsVoiceMemo(es[0], probe) then [VoiceMemoPath(es[0].path)] else [])
         + MemoPaths(es[1..], probe)
  }

  /** One iteration on the tree as it is now. A path no longer present
      changes nothing: ffprobe prints nothing on standard output for it, so
      the rename is tried and raises. Otherwise the file at the path is
      probed, and a voice memo is moved to its new path, replacing whatever
      file was there. */
  function Step(fs: Tree, p: FilePath, probe: Entry -> Option<string>): (r: (Tree, Option<FilePath>))
    ensures r.1.Some? <==> p in fs && IsVoiceMemo(Entry(p, fs[p]), probe)
    ensures r.1.None? ==> r.0 == fs
    ensures r.1.Some? ==> p in fs && r.1 == Some(VoiceMemoPath(p))
                          && p !in r.0 && r.1.value in r.0 && r.0[r.1.value] == fs[p]
    ensures r.1.Some? ==> forall q :: q != p && q != VoiceMemoPath(p) ==>
                            (q in r.0 <==> q in fs) && (q in fs ==> r.0[q] == fs[q])
  {
    if p in fs && IsVoiceMemo(Entry(p, fs[p]), probe) then
      ((fs - {p})[VoiceMemoPath(p) := fs[p]], Some(VoiceMemoPath(p)))
    else (fs, None)
  }

  /** The loop over the listing: the tree afterwards and `voice_memos`. */
  function Pass(fs: Tree, files: seq<FilePath>, probe: Entry -> Option<string>): (r: (Tree, seq<FilePath>))
    ensures |r.1| <= |files|
    decreases |files|
  {
    if files == [] then (fs, [])
    else
      var r := Step(fs, files[0], probe);
      var rest := Pass(r.0, files[1..], probe);
      (rest.0, (if r.1.Some? then [r.1.value] else []) + rest.1)
  }

  /** A move removes one file and adds at most one: the count of files
      never grows, and stays when the target was free. */
  lemma MoveCount(fs: Tree, p: FilePath, t: FilePath, c: Content)
    requires p in fs
    ensures |(fs - {p})[t := c]| <= |fs|
    ensures t !in fs ==> |(fs - {p})[t := c]| == |fs|
  {
    var m1 := fs - {p};
    assert m1.Keys == fs.Keys - {p};
    assert m1[t := c].Keys == m1.Keys + {t};
  }

  /** Renaming only: the pass never makes the number of files grow. */
  lemma {:induction false} PassNoNewFiles(fs: Tree, files: seq<FilePath>, probe: Entry -> Option<string>)
    ensures |Pass(fs, files, probe).0| <= |fs|
    decreases |files|
  {
    if files != [] {
      var p := files[0];
      var r := Step(fs, p, probe);
      if r.1.Some? {
        MoveCount(fs, p, VoiceMemoPath(p), fs[p]);
      }
      PassNoNewFiles(r.0, files[1..], probe);
    }
  }

  /** Every returned path is the new path of a listed file, and there are
      no more of them than listed files. */
  lemma {:induction false} PassMemos(fs: Tree, files: seq<FilePath>, probe: Entry -> Option<string>)
    ensures |Pass(fs, files, probe).1| <= |files|
    ensures forall m :: m in Pass(fs, files, probe).1 ==>
      exists i :: 0 <= i < |files| && m == VoiceMemoPath(files[i])
    decreases |files|
  {
    if files != [] {
      var r := Step(fs, files[0], probe);
      PassMemos(r.0, files[1..], probe);
      forall m | m in Pass(r.0, files[1..], probe).1
        ensures exists i :: 0 <= i < |files| && m == VoiceMemoPath(files[i])
      {
        var i :| 0 <= i < |files[1..]| && m == VoiceMemoPath(files[1..][i]);
        assert files[i + 1] == files[1..][i];
      }
    }
  }

  /** A path that is neither listed nor the new path of a listed file is
      left as it was. */
  lemma {:induction false} PassFrame(fs: Tree, files: seq<FilePath>, probe: Entry -> Option<string>, q: FilePath)
    requires forall i :: 0 <= i < |files| ==> q != files[i] && q != VoiceMemoPath(files[i])
    ensures q in Pass(fs, files, probe).0 <==> q in fs
    ensures q in fs ==> Pass(fs, files, probe).0[q] == fs[q]
    decreases |files|
  {
    if files != [] {
      var r := Step(fs, files[0], probe);
      assert forall i :: 0 <= i < |files[1..]| ==> files[1..][i] == files[i + 1];
      PassFrame(r.0, files[1..], probe, q);
    }
  }

  /** The listing of a first run: distinct `.mp4` files of the tree, none
      of whose new paths is taken yet. */
  predicate FreshListing(fs: Tree, files: seq<FilePath>) {
    Distinct(files)
    && forall i :: 0 <= i < |files| ==>
         files[i] in fs && EndsWith(files[i].name, ".mp4") && VoiceMemoPath(files[i]) !in fs
  }

  /** The listed files with the content they have before the pass. */
  function Entries(fs: Tree, files: seq<FilePath>): (es: seq<Entry>)
    requires forall i :: 0 <= i < |files| ==> files[i] in fs
    ensures |es| == |files|
    ensures forall i :: 0 <= i < |files| ==> es[i] == Entry(files[i], fs[files[i]])
  {
    seq(|files|, i requires 0 <= i < |files| => Entry(files[i], fs[files[i]]))
  }

  /** Every entry of `es` sits, once processed on its own, in `after`. */
  predicate AllProcessed(after: Tree, es: seq<Entry>, probe: Entry -> Option<string>) {
    forall i :: 0 <= i < |es| ==>
      Processed(es[i], probe).path in after && after[Processed(es[i], probe).path] == es[i].content
  }

  /** One step of a first run changes neither a later listed file nor
      frees or takes its new path. */
  lemma StepKeepsLater(fs: Tree, p: FilePath, q: FilePath, probe: Entry -> Option<string>)
    requires p in fs && q in fs && p != q
    requires EndsWith(p.name, ".mp4") && EndsWith(q.name, ".mp4")
    requires VoiceMemoPath(p) !in fs && VoiceMemoPath(q) !in fs
    ensures var fs1 := Step(fs, p, probe).0;
            q in fs1 && fs1[q] == fs[q] && VoiceMemoPath(q) !in fs1
  {
    VoiceMemoPathInjective(p, q);
  }

  /** One step of a first run keeps the rest of the listing a first-run
      listing, with the same contents. */
  lemma StepKeepsFresh(fs: Tree, files: seq<FilePath>, probe: Entry -> Option<string>)
    requires files != [] && FreshListing(fs, files)
    ensures var fs1 := Step(fs, files[0], probe).0;
            FreshListing(fs1, files[1..])
            && Entries(fs1, files[1..]) == Entries(fs, files)[1..]
  {
    var p := files[0];
    var fs1 := Step(fs, p, probe).0;
    var rest := files[1..];
    forall j | 0 <= j < |rest|
      ensures rest[j] in fs1 && fs1[rest[j]] == fs[rest[j]]
              && EndsWith(rest[j].name, ".mp4") && VoiceMemoPath(rest[j]) !in fs1
    {
      assert rest[j] == files[j + 1];
      StepKeepsLater(fs, p, rest[j], probe);
    }
    DistinctTail(files);
    EntriesTail(fs, fs1, files);
  }

  /** The tail of the listing read on a tree that still holds each of its
      files with the same content. */
  lemma EntriesTail(fs: Tree, fs1: Tree, files: seq<FilePath>)
    requires files != []
    requires forall i :: 0 <= i < |files| ==> files[i] in fs
    requires forall j :: 0 <= j < |files[1..]| ==> files[1..][j] in fs1 && fs1[files[1..][j]] == fs[files[1..][j]]
    ensures Entries(fs1, files[1..]) == Entries(fs, files)[1..]
  {
    var e1 := Entries(fs1, files[1..]);
    var e0 := Entries(fs, files)[1..];
    forall j | 0 <= j < |files[1..]| ensures e1[j] == e0[j] {
      assert files[1..][j] == files[j + 1];
    }
  }

  lemma DistinctTail<T>(xs: seq<T>)
    requires xs != [] && Distinct(xs)
    ensures Distinct(xs[1..])
  {
    forall i, j | 0 <= i < j < |xs| - 1 ensures xs[1..][i] != xs[1..][j] {
      assert xs[1..][i] == xs[i + 1] && xs[1..][j] == xs[j + 1];
    }
  }

  /** On a first run the loop agrees with processing each file on its own:
      the returned paths are those of the voice memos in listing order,
      every listed file sits at its processed path with its content, and
      no file is lost. */
  lemma {:induction false} PassFresh(fs: Tree, files: seq<FilePath>, probe: Entry -> Option<string>)
    requires FreshListing(fs, files)
    ensures Pass(fs, files, probe).1 == MemoPaths(Entries(fs, files), probe)
    ensures AllProcessed(Pass(fs, files, probe).0, Entries(fs, files), probe)
    ensures |Pass(fs, files, probe).0| == |fs|
    decreases |files|
  {
    if files != [] {
      var p := files[0];
      var es := Entries(fs, files);
      var r := Step(fs, p, probe);
      var rest := files[1..];
      StepKeepsFresh(fs, files, probe);
      PassFresh(r.0, rest, probe);
      var after := Pass(r.0, rest, probe).0;
      assert es[1..] == Entries(r.0, rest);
      assert MemoPaths(es, probe)
             == (if IsVoiceMemo(es[0], probe) then [VoiceMemoPath(p)] else []) + MemoPaths(es[1..], probe);
      if r.1.Some? {
        MoveCount(fs, p, VoiceMemoPath(p), fs[p]);
      }
      FirstKept(fs, files, probe);
      assert AllProcessed(after, es, probe) by {
        forall i | 0 <= i < |es|
          ensures Processed(es[i], probe).path in after
                  && after[Processed(es[i], probe).path] == es[i].content
        {
          if i > 0 {
            assert es[i] == Entries(r.0, rest)[i - 1];
          }
        }
      }
    }
  }

  /** On a first run, the first listed file is, once processed, out of
      reach of the rest of the loop. */
  lemma FirstKept(fs: Tree, files: seq<FilePath>, probe: Entry -> Option<string>)
    requires files != [] && FreshListing(fs, files)
    ensures var e := Entry(files[0], fs[files[0]]);
            var q := Processed(e, probe).path;
            var after := Pass(Step(fs, files[0], probe).0, files[1..], probe).0;
            q in after && after[q] == e.content
  {
    var p := files[0];
    var rest := files[1..];
    var q := Processed(Entry(p, fs[p]), probe).path;
    forall j | 0 <= j < |rest| ensures q != rest[j] && q != VoiceMemoPath(rest[j]) {
      assert rest[j] == files[j + 1] && rest[j] != p;
      VoiceMemoPathInjective(p, rest[j]);
    }
    PassFrame(Step(fs, p, probe).0, rest, probe, q);
  }

  /** On a later run, a clip renamed by the first run is listed again after
      the clip it came from, which was extracted anew. The first rename
      replaces the earlier voice memo; the moved clip is then probed and
      renamed once more. One file is lost, and the first returned path no
      longer exists. */
  lemma RerunMergesMemo(fs: Tree, a: FilePath, probe: Entry -> Option<string>)
    requires a in fs && VoiceMemoPath(a) in fs && VoiceMemoPath(VoiceMemoPath(a)) !in fs
    requires IsVoiceMemo(Entry(a, fs[a]), probe)
    requires IsVoiceMemo(Entry(VoiceMemoPath(a), fs[a]), probe)
    ensures var b := VoiceMemoPath(a);
            var r := Pass(fs, [a, b], probe);
            r.1 == [b, VoiceMemoPath(b)]
            && a !in r.0 && b !in r.0
            && VoiceMemoPath(b) in r.0 && r.0[VoiceMemoPath(b)] == fs[a]
            && |r.0| == |fs| - 1
  {
    var b := VoiceMemoPath(a);
    var c := VoiceMemoPath(b);
    assert |b.name| == |a.name| + 10 && |c.name| == |b.name| + 10;
    var fs1 := (fs - {a})[b := fs[a]];
    assert Step(fs, a, probe).0 == fs1;
    assert fs1[b] == fs[a];
    PassTwo(fs, a, b, probe);
    MoveTwice(fs, a, b, c);
  }

  /** Moving `a` onto the existing `b`, then `b` to the free `c`, leaves
      `a`'s content at `c` and one file fewer. */
  lemma MoveTwice(fs: Tree, a: FilePath, b: FilePath, c: FilePath)
    requires a != b && b != c && a != c
    requires a in fs && b in fs && c !in fs
    ensures var fs2 := (((fs - {a})[b := fs[a]]) - {b})[c := fs[a]];
            a !in fs2 && b !in fs2 && c in fs2 && fs2[c] == fs[a] && |fs2| == |fs| - 1
  {
    var fs1 := (fs - {a})[b := fs[a]];
    assert fs1.Keys == fs.Keys - {a};
    MoveCount(fs1, b, c, fs[a]);
  }

  /** The loop over a listing of two files is two steps. */
  lemma PassTwo(fs: Tree, a: FilePath, b: FilePath, probe: Entry -> Option<string>)
    ensures var r1 := Step(fs, a, probe);
            var r2 := Step(r1.0, b, probe);
            Pass(fs, [a, b], probe)
            == (r2.0, (if r1.1.Some? then [r1.1.value] else []) + (if r2.1.Some? then [r2.1.value] else []))
  {
    var r1 := Step(fs, a, probe);
    var r2 := Step(r1.0, b, probe);
    assert [a, b][1..] == [b] && [b][1..] == [];
    assert Pass(r2.0, [], probe) == (r2.0, []);
    var m2 := if r2.1.Some? then [r2.1.value] else [];
    assert m2 + [] == m2;
    assert Pass(r1.0, [b], probe) == (r2.0, m2);
  }

  /** The pass on the listing `files` taken before the loop: each file is
      probed and renamed in turn; the result is the tree afterwards and the
      returned list of new paths. */
  method FindVoiceMemos(fs: Tree, files: seq<FilePath>, probe: Entry -> Option<string>)
    returns (after: Tree, memos: seq<FilePath>)
    ensures (after, memos) == Pass(fs, files, probe)
    ensures |after| <= |fs|
    ensures |memos| <= |files|
    ensures forall m :: m in memos ==> exists i :: 0 <= i < |files| && m == VoiceMemoPath(files[i])
    ensures FreshListing(fs, files) ==>
      memos == MemoPaths(Entries(fs, files), probe)
      && AllProcessed(after, Entries(fs, files), probe) && |after| == |fs|
  {
    after := fs;
    memos := [];
    var k := 0;
    assert files[k..] == files;
    assert memos + Pass(fs, files, probe).1 == Pass(fs, files, probe).1;
    while k < |files|
      invariant 0 <= k <= |files|
      invariant Pass(fs, files, probe)
                == (Pass(after, files[k..], probe).0, memos + Pass(after, files[k..], probe).1)
    {
      var r := Step(after, files[k], probe);
      PassUnfold(after, files[k..], probe);
      assert files[k..][0] == files[k] && files[k..][1..] == files[k + 1..];
      var tail := Pass(r.0, files[k + 1..], probe).1;
      var found := if r.1.Some? then [r.1.value] else [];
      assert memos + (found + tail) == (memos + found) + tail;
      after := r.0;
      memos := memos + found;
      k := k + 1;
    }
    assert files[k..] == [];
    assert Pass(after, [], probe) == (after, []);
    assert memos + [] == memos;
    PassSummary(fs, files, probe);
  }

  /** One iteration of the loop peeled off the front of the pass. */
  lemma PassUnfold(fs: Tree, files: seq<FilePath>, probe: Entry -> Option<string>)
    requires files != []
    ensures var r := Step(fs, files[0], probe);
            var rest := Pass(r.0, files[1..], probe);
            Pass(fs, files, probe) == (rest.0, (if r.1.Some? then [r.1.value] else []) + rest.1)
  {
  }

  /** What the pass promises, gathered for its callers. */
  lemma PassSummary(fs: Tree, files: seq<FilePath>, probe: Entry -> Option<string>)
    ensures var r := Pass(fs, files, probe);
            |r.0| <= |fs| && |r.1| <= |files|
            && (forall m :: m in r.1 ==> exists i :: 0 <= i < |files| && m == VoiceMemoPath(files[i]))
            && (FreshListing(fs, files) ==>
                  r.1 == MemoPaths(Entries(fs, files), probe)
                  && AllProcessed(r.0, Entries(fs, files), probe) && |r.0| == |fs|)
  {
    PassNoNewFiles(fs, files, probe);
    PassMemos(fs, files, probe);
    if FreshListing(fs, files) {
      PassFresh(fs, files, probe);
    }
  }

  /** Exactly the voice memos are renamed: a file keeps its path unless the
      probe ran on an `.mp4` and printed only whitespace, and then its new
      name keeps the suffix and appends `-voicememo` to the stem. */
  lemma RenamedIffVoiceMemo(e: Entry, probe: Entry -> Option<string>)
    requires IsMp4Candidate(e) && probe(e).Some?
    ensures Processed(e, probe).path != e.path <==>
      forall i :: 0 <= i < |probe(e).value| ==> IsSpace(probe(e).value[i])
  {
    StripEmptyIffBlank(probe(e).value);
  }
}
